=== FILE: README.md ===
# Sapling note plaintexts and the BLS12-381 pairing engine, in Dafny

This project models two parts of librustzcash and proves properties of them.

**Sapling note encryption** (`zcash_primitives/src/note_encryption.rs`) is split across these modules:

- `Memos`: the 512-byte memo field.
- `Utf8`: the UTF-8 encoding and validation that `from_str` and `to_utf8` rely on.
- `Hex`: the colon-delimited hex of its `Debug` output.
- `Zip212`: the ZIP 212 rule for the plaintext lead byte.
- `NotePlaintext`:
  - the 564-byte note plaintext layout of section 5.5 of the Zcash Protocol Specification;
  - how it is encrypted for the recipient and the sender;
  - how it is read back by full and compact trial decryption (sections 4.17.2 and 4.17.3 of the same specification, and ZIP 307) and by output recovery with `ock`.

**The BLS12-381 engine** (`pairing/src/bls12_381/mod.rs`) is split across these modules:

- `TargetGroup`: the target group `Gt`, with its group operations and double-and-add scalar multiplication.
- `LoopSchedule`: the loop parameter x and the sequence of line steps it induces.
- `G2Preparation`: `G2Prepared::from_affine`.
- `MillerLoop`: the batched Miller loop.
- `Pairing`: the final exponentiation and `pairing`.

The field tower is not modelled element by element. `Fq12Algebra` describes Fq12 as a record of operations (`Fq12Ops`): one, mul, square, conjugate, frobenius and invert. A ghost predicate `Lawful` collects the algebraic facts the code relies on:

- a commutative monoid;
- squaring is multiplication by itself;
- conjugation and Frobenius are multiplicative and one-preserving;
- conjugation is an involution;
- `invert` succeeds exactly on elements with a multiplicative inverse.

The other parameters are abstract in the same way:

- The line evaluation `ell` (`mul_by_014`) is multiplication by an uninterpreted line element.
- The doubling and addition steps of G2 preparation are uninterpreted functions (`LineSteps`).

**What this buys.** The Miller loop gets a closed-form specification: every line element is raised to 2 to the power of the number of doubling steps that follow its slot.

**The primitives around the note plaintext are parameters.** These include the AEAD, its keystream, Jubjub point serialisation, key agreement and key derivation. Their only known properties are stated as predicates:

- `NotePlaintext.Lawful` states, for the AEAD, the properties of section 2.8 of RFC 8439:
  - opening a sealed text gives it back;
  - the ciphertext is the keystream XOR followed by a 16-byte tag;
  - a ciphertext that opens is 16 bytes longer than its plaintext.
- `NotePlaintext.SerialisationLawful` states, for point serialisation, that a point is written as 32 bytes and reads back.

**Panics are modelled as `None`.** This covers every `unwrap()` or `?` on a failing value, such as the field inversion in the final exponentiation and a `coeffs.next().unwrap()` in the Miller loop.

**UTF-8 validation.** The loop is written once, over any recogniser of a first scalar value (`Utf8.DecodeWith`). The lemmas about it hold for every recogniser that agrees with the encoder (`Utf8.AgreesWithEncoder`). `Utf8.Decode` is that loop applied to the table-3-7 recogniser `Utf8.DecodeFirst`, and `Utf8.DecodeFirstAgrees` discharges the agreement.

**Miller-loop order.** Unlike the textbook loop, which squares the accumulator and then multiplies by a line value, the code (`pairing/src/bls12_381/mod.rs:250-275`) proceeds as follows, and the model follows it:

- In every iteration after the leading one, it first multiplies by the doubling line of every pair.
- It multiplies by the addition line only when the bit is set.
- It squares at the end of the iteration.
- After the loop it multiplies once more by a final doubling line.
- It conjugates, because x is negative.

## Model

| member | source | states |
|---|---|---|
| Bytes.LeValueOfLeBytes | zcash_primitives/src/note_encryption.rs:294-297 | writing a value that fits in n little-endian bytes and reading the bytes back gives the value |
| Bytes.LeBytesOfLeValue | zcash_primitives/src/note_encryption.rs:358 | re-encoding the value of any byte string at its own length reproduces the byte string |
| Bytes.U64RoundTrip | zcash_primitives/src/note_encryption.rs:294-297 | every u64 note value survives the 8-byte little-endian field of the plaintext |
| Utf8.EncodeChar | zcash_primitives/src/note_encryption.rs:129-135 | a scalar value is encoded in 1 to 4 bytes whose lead byte is below 0xF5, so encoded text never looks like a non-text memo |
| Utf8.DecodeFirstOfEncodeChar | zcash_primitives/src/note_encryption.rs:115-126 | validation recognises the encoding of any scalar value at the front of any byte string, consuming exactly its length |
| Utf8.EncodeCharOfDecodeFirst | zcash_primitives/src/note_encryption.rs:115-126 | whatever first sequence validation accepts is the encoding of the scalar value it yields (no overlong or surrogate forms) |
| Utf8.DecodeFirstPrefix | zcash_primitives/src/note_encryption.rs:115-126 | recognising a first sequence looks at no byte beyond it |
| Utf8.DecodeFirstAgrees | zcash_primitives/src/note_encryption.rs:115-135 | the table-3-7 recogniser inverts the encoder, is recognised by it and is local, the three facts the generic loop lemmas need |
| Utf8.Decode | zcash_primitives/src/note_encryption.rs:115-126 | a failed validation reports a valid_up_to offset inside the input |
| Utf8.DecodeWithOfEncodeSuccess | zcash_primitives/src/note_encryption.rs:115-135 | for any agreeing recogniser, validating encoded text followed by valid bytes yields the text followed by their decoding |
| Utf8.DecodeWithOfEncodeFailure | zcash_primitives/src/note_encryption.rs:115-135 | for any agreeing recogniser, encoded text in front of invalid bytes shifts valid_up_to by exactly the encoded length |
| Utf8.DecodeOfEncode | zcash_primitives/src/note_encryption.rs:115-135 | str::from_utf8 of as_bytes of a string followed by valid bytes yields the string followed by their decoding |
| Utf8.DecodeOfEncodeShift | zcash_primitives/src/note_encryption.rs:115-135 | a valid prefix moves the reported valid_up_to by exactly its length |
| Utf8.EncodeDecodeRoundTrip | zcash_primitives/src/note_encryption.rs:115-135 | from_utf8(as_bytes(s)) is Ok(s) for every string |
| Utf8.DecodeWithFailureOffset | zcash_primitives/src/note_encryption.rs:115-126 | for any agreeing recogniser, the bytes before valid_up_to validate and no sequence is recognised at valid_up_to |
| Utf8.DecodeFailureOffset | zcash_primitives/src/note_encryption.rs:115-126 | valid_up_to is inside the input, the bytes before it are valid UTF-8 and the bytes at it start no well-formed sequence |
| Utf8.EncodeOfDecodeWith | zcash_primitives/src/note_encryption.rs:115-135 | for any agreeing recogniser, bytes that validate are the encoding of what they decode to |
| Utf8.EncodeOfDecode | zcash_primitives/src/note_encryption.rs:115-135 | as_bytes(from_utf8(bs)) == bs for every valid bs, so validation loses nothing |
| Utf8.EncodeAppend | zcash_primitives/src/note_encryption.rs:129-135 | encoding distributes over concatenation of strings |
| Utf8.EncodeOfNuls | zcash_primitives/src/note_encryption.rs:115-126 | n NUL characters encode as n zero bytes, the padding of a memo |
| Utf8.DecodeOfZeros | zcash_primitives/src/note_encryption.rs:115-126 | zero padding validates as NUL characters, one per byte |
| Hex.ByteHexRoundTrip | zcash_primitives/src/note_encryption.rs:42-57 | the two {:02x} digits of a byte, read as lower-case hex, give the byte back |
| Hex.ColonHexShape | zcash_primitives/src/note_encryption.rs:42-57 | the reference rendering has 3n-1 characters, the digits of byte k at positions 3k and 3k+1 and a colon after every byte but the last |
| Hex.ColonHexUnique | zcash_primitives/src/note_encryption.rs:42-57 | that positional shape determines the string |
| Hex.IsColonHexIff | zcash_primitives/src/note_encryption.rs:42-57 | a string has the colon-delimited shape if and only if it is the reference rendering |
| Hex.FmtColonDelimitedHex | zcash_primitives/src/note_encryption.rs:42-57 | the formatter loop writes two digits per byte with a separating colon only between bytes, equal to the reference rendering |
| Memos.Default | zcash_primitives/src/note_encryption.rs:74-81 | the default memo is 0xF6 followed by 511 zero bytes |
| Memos.FromBytes | zcash_primitives/src/note_encryption.rs:93-104 | succeeds exactly for slices of at most 512 bytes; the empty slice gives the default memo, any other is copied to the front with zeros after it |
| Memos.FromBytesOfAsBytes | zcash_primitives/src/note_encryption.rs:93-109 | reading a memo back from its own bytes gives the same memo |
| Memos.Eq | zcash_primitives/src/note_encryption.rs:83-87 | comparing the byte arrays decides equality of memos, both ways |
| Memos.TrimTrailingNul | zcash_primitives/src/note_encryption.rs:119-122 | trim_end_matches keeps a prefix, drops only NULs, and leaves no NUL at the end |
| Memos.TrimAppendNuls | zcash_primitives/src/note_encryption.rs:119-122 | trimming ignores any number of NULs appended to the text |
| Memos.TrimSplit | zcash_primitives/src/note_encryption.rs:119-122 | a string is its trimmed form followed by NULs |
| Memos.ToUtf8 | zcash_primitives/src/note_encryption.rs:115-126 | None exactly for a lead byte of 0xF5 or above; otherwise Ok exactly when all 512 bytes validate, and an error's valid_up_to is the first offset where no sequence is recognised, with every byte before it valid |
| Memos.DefaultIsNotText | zcash_primitives/src/note_encryption.rs:758-762 | the default memo is not text |
| Memos.FromStr | zcash_primitives/src/note_encryption.rs:129-135 | succeeds exactly when the UTF-8 encoding of the string fits in 512 bytes |
| Memos.FromStrOfEmpty | zcash_primitives/src/note_encryption.rs:649-666 | the empty string gives the default memo, as the first memo_from_str vector expects |
| Memos.TextRoundTrip | zcash_primitives/src/note_encryption.rs:115-135 | a non-empty string that fits comes back from to_utf8 with only its trailing NULs removed |
| Memos.TextMemoFromStr | zcash_primitives/src/note_encryption.rs:115-135 | conversely, every text memo with non-empty text is what from_str makes of that text |
| Memos.TestMemoVector | zcash_primitives/src/note_encryption.rs:758-761 | from_str("Test memo") reads back as "Test memo" |
| Memos.DebugString | zcash_primitives/src/note_encryption.rs:63-72 | Debug output always has the form Memo(...) |
| Memos.DebugOfBinary | zcash_primitives/src/note_encryption.rs:63-72 | a memo that is not valid text shows all 512 bytes as colon-delimited hex |
| Memos.DebugOfText | zcash_primitives/src/note_encryption.rs:63-72 | a text memo shows its trimmed text between quotes |
| Zip212.PlaintextVersionIsValid | zcash_primitives/src/note_encryption.rs:393-412 | before Canopy only lead byte 1 is accepted; from activation until activation + 32256 bytes 1 and 2; from then on only 2 |
| Zip212.VersionValidIffAllowed | zcash_primitives/src/note_encryption.rs:393-412 | the decision is membership in the set of lead bytes ZIP 212 allows at the height, both ways |
| Zip212.OnlyKnownVersions | zcash_primitives/src/note_encryption.rs:393-412 | only versions 1 and 2 are ever accepted, and at every height at least one of them is |
| Zip212.InvalidVersionByteVectors | zcash_primitives/src/note_encryption.rs:1058-1091 | version 2 one block before activation, version 3 at activation and version 1 at the end of the grace period are all rejected |
| NotePlaintext.SizeConstants | zcash_primitives/src/note_encryption.rs:28-36 | compact note 52, note plaintext 564, note ciphertext 580, outgoing plaintext 64, outgoing ciphertext 80 bytes |
| NotePlaintext.FsToRepr | zcash_primitives/src/note_encryption.rs:300 | an Fs scalar is written as 32 bytes |
| NotePlaintext.FsFromRepr | zcash_primitives/src/note_encryption.rs:363-366 | 32 bytes are accepted exactly when their little-endian value is below the Jubjub subgroup order, and denote that value |
| NotePlaintext.FsReprRoundTrip | zcash_primitives/src/note_encryption.rs:300 | reading back a written scalar gives the scalar |
| NotePlaintext.FsReprOfFromRepr | zcash_primitives/src/note_encryption.rs:363-366 | an accepted representation is the canonical one, so rcm is read from exactly one encoding |
| NotePlaintext.Version | zcash_primitives/src/note_encryption.rs:290-293 | every note is encrypted with version byte 1 or 2 |
| NotePlaintext.RseedBytes | zcash_primitives/src/note_encryption.rs:298-305 | both kinds of rseed fill the 32-byte field |
| NotePlaintext.EncodeCompact | zcash_primitives/src/note_encryption.rs:289-305 | the compact part of the plaintext is 52 bytes |
| NotePlaintext.EncodeNotePlaintext | zcash_primitives/src/note_encryption.rs:289-306 | the plaintext is 564 bytes: the compact encoding followed by the 512 memo bytes |
| NotePlaintext.ReadU64 | zcash_primitives/src/note_encryption.rs:358 | the value read from an 8-byte field is the one whose encoding those bytes are |
| NotePlaintext.ReadCompactFields | zcash_primitives/src/note_encryption.rs:350-369 | a lead byte not valid at the height is rejected, and any accepted note has well-formed fields |
| NotePlaintext.ReadOfEncode | zcash_primitives/src/note_encryption.rs:289-305 | reading the fields back from an encoding, whatever follows it, gives the note when its version is valid at the height |
| NotePlaintext.EncodeOfRead | zcash_primitives/src/note_encryption.rs:350-369 | whatever fields are read from a plaintext, the plaintext starts with their encoding |
| NotePlaintext.ParseNotePlaintextWithoutMemo | zcash_primitives/src/note_encryption.rs:343-391 | an accepted plaintext has a valid version and passes the recipient's checks, and its first 52 bytes encode the note returned |
| NotePlaintext.XorBitsInvolution | zcash_primitives/src/note_encryption.rs:477-479 | XOR with the same key bits twice gives an n-bit value back |
| NotePlaintext.StreamXorInvolution | zcash_primitives/src/note_encryption.rs:477-479 | applying the ChaCha20 keystream twice gives the bytes back |
| NotePlaintext.StreamXorPrefix | zcash_primitives/src/note_encryption.rs:477-479 | the keystream is positional, so XOR of a prefix is the prefix of the XOR |
| NotePlaintext.SealLaws | zcash_primitives/src/note_encryption.rs:308-314 | under the AEAD laws a sealed text opens to itself, is 16 bytes longer, and starts with the keystream XOR |
| NotePlaintext.SealLength | zcash_primitives/src/note_encryption.rs:308-314 | under the AEAD laws sealing adds exactly the 16-byte tag |
| NotePlaintext.OpenLength | zcash_primitives/src/note_encryption.rs:433-445 | a ciphertext that opens is 16 bytes longer than the plaintext it gives |
| NotePlaintext.WrittenLength | zcash_primitives/src/note_encryption.rs:328 | under the serialisation laws pk_d is written as 32 bytes |
| NotePlaintext.EncryptNotePlaintext | zcash_primitives/src/note_encryption.rs:283-317 | under the AEAD laws the note ciphertext is 580 bytes |
| NotePlaintext.EncryptOutgoingPlaintext | zcash_primitives/src/note_encryption.rs:320-340 | under the AEAD and serialisation laws the outgoing ciphertext is 80 bytes |
| NotePlaintext.TrySaplingCompactNoteDecryption | zcash_primitives/src/note_encryption.rs:464-482 | an accepted compact note is well formed, carries a version valid at the height and passed the recipient's checks, and its encoding XORed with the keystream is the 52-byte ciphertext |
| NotePlaintext.TrySaplingNoteDecryption | zcash_primitives/src/note_encryption.rs:421-452 | an accepted note is well formed, carries a version valid at the height and passed the recipient's checks, and the ciphertext opens under the key to the encoding of that note and memo (the converse is NoteDecryptionOfEncryption) |
| NotePlaintext.TrySaplingOutputRecoveryWithOck | zcash_primitives/src/note_encryption.rs:492-586 | a recovered note is well formed and carries a version valid at the height; the outgoing ciphertext opened under ock to a 64-byte plaintext whose pk_d and esk both read back, the sender's checks passed for them, and the note ciphertext opens under the key derived from them to the encoding of the recovered note and memo (the converse is RecoveryOfEncryption) |
| NotePlaintext.NoteDecryptionOfEncryption | zcash_primitives/src/note_encryption.rs:421-452 | the recipient decrypts what the sender encrypted under the same key to the same note and memo, when the version is valid and the recipient's checks pass |
| NotePlaintext.NoteDecryptionRejectsVersion | zcash_primitives/src/note_encryption.rs:421-452 | a sealed plaintext whose lead byte is not valid at the height is always rejected |
| NotePlaintext.CompactDecryptionOfEncryption | zcash_primitives/src/note_encryption.rs:464-482 | a light client decrypting the first 52 bytes of the sender's ciphertext gets the same note |
| NotePlaintext.RecoveryOfEncryption | zcash_primitives/src/note_encryption.rs:492-586 | with ock the sender recovers the note and memo from both ciphertexts, when the note was sealed under the key derived from the esk and pk_d in the outgoing ciphertext |
| Bits.BeValueOfBeBits | pairing/src/bls12_381/mod.rs:250 | the most-significant-first bit stream of n bits denotes the number modulo 2^n |
| Bits.CountTrueOfBeBits | pairing/src/bls12_381/mod.rs:250 | the set bits of that stream are the population count of the number |
| Bits.AfterLeadingOneOfPadded | pairing/src/bls12_381/mod.rs:249-254 | skipping to the first set bit of a zero-padded number leaves the bits below its top bit |
| Bits.BeValueOfReprBits | pairing/src/bls12_381/mod.rs:143-148 | reading the little-endian repr byte by byte from the top, high bit first, gives its value |
| Bits.BeValueDropFirst | pairing/src/bls12_381/mod.rs:149 | skipping the first bit of the stream reduces the value modulo 2^(length-1) |
| Fq12Algebra.InvertSpec | pairing/src/bls12_381/mod.rs:288 | under the Fq12 laws, invert gives b exactly when a·b is one |
| Fq12Algebra.PowAdd | pairing/src/bls12_381/mod.rs:296-301 | x^(a+b) = x^a · x^b for the repeated-multiplication power |
| Fq12Algebra.PowOfMul | pairing/src/bls12_381/mod.rs:296-301 | (a·b)^n = a^n · b^n for the repeated-multiplication power |
| Fq12Algebra.PowMul | pairing/src/bls12_381/mod.rs:296-301 | x^(a·b) = (x^a)^b |
| Fq12Algebra.ConjugatePow | pairing/src/bls12_381/mod.rs:296-301 | conjugation commutes with powers |
| Fq12Algebra.SquareOfMul | pairing/src/bls12_381/mod.rs:266 | squaring distributes over multiplication, which lets the loop square line products one by one |
| TargetGroup.Identity | pairing/src/bls12_381/mod.rs:186-188 | under the field laws the identity is neutral: adding it to any element leaves that element |
| TargetGroup.Double | pairing/src/bls12_381/mod.rs:199-201 | under the field laws doubling by squaring equals adding the element to itself |
| TargetGroup.Add | pairing/src/bls12_381/mod.rs:75-101 | under the field laws addition commutes, and the identity on either side leaves the other operand |
| TargetGroup.Neg | pairing/src/bls12_381/mod.rs:53-61 | under the field laws negating twice gives the element back, and a negation is the identity exactly when the element is |
| TargetGroup.Sub | pairing/src/bls12_381/mod.rs:103-129 | under the field laws subtracting the identity leaves the element |
| TargetGroup.Sum | pairing/src/bls12_381/mod.rs:63-73 | the empty sum is the identity; under the field laws a one-element sum is that element and a sum of identities is the identity |
| TargetGroup.IsIdentity | pairing/src/bls12_381/mod.rs:186-197 | is_identity holds exactly for Gt(one) |
| TargetGroup.AddCommutativeMonoid | pairing/src/bls12_381/mod.rs:75-101 | Gt addition is associative and commutative with the identity as neutral element |
| TargetGroup.NegLaws | pairing/src/bls12_381/mod.rs:53-61 | negation is an involution, distributes over addition and fixes the identity |
| TargetGroup.SubCancels | pairing/src/bls12_381/mod.rs:103-129 | for unitary elements, b − b is the identity and (a + b) − b is a |
| TargetGroup.SumAppend | pairing/src/bls12_381/mod.rs:63-73 | the empty sum is the identity and the sum of a concatenation is the sum of the two sums |
| TargetGroup.TimesIsPow | pairing/src/bls12_381/mod.rs:131-157 | n-fold addition in Gt is the n-th power in Fq12 |
| TargetGroup.TimesLaws | pairing/src/bls12_381/mod.rs:131-157 | scalar multiplication distributes over scalar addition and composes with scalar multiplication |
| TargetGroup.TimesDouble | pairing/src/bls12_381/mod.rs:151 | doubling n·g gives (2n)·g |
| TargetGroup.DoubleAndAddStep | pairing/src/bls12_381/mod.rs:151-152 | one double-and-select step turns the multiple for a bit prefix into the multiple for the prefix extended by one bit |
| TargetGroup.SkippedTopBit | pairing/src/bls12_381/mod.rs:141-149 | the 255 bits after skip(1) denote the scalar modulo 2^255, which is the scalar itself when it is below 2^255 |
| TargetGroup.DoubleAndAdd | pairing/src/bls12_381/mod.rs:143-153 | doubling and then conditionally adding g over a bit stream computes the multiple of g that the stream denotes, most significant bit first |
| TargetGroup.Mul | pairing/src/bls12_381/mod.rs:131-157 | the loop computes the multiple of g denoted by the 255 bits after the skipped top bit of the repr (by SkippedTopBit, the scalar modulo 2^255), which is scalar·g for every scalar below 2^255, so for every canonical Fr scalar |
| LoopSchedule.BodySnoc | pairing/src/bls12_381/mod.rs:499-510 | each further bit adds one doubling step, then an addition step when it is set |
| LoopSchedule.BodyAppend | pairing/src/bls12_381/mod.rs:499-510 | the steps of concatenated bits are the concatenated steps |
| LoopSchedule.BodyLength | pairing/src/bls12_381/mod.rs:499-510 | n bits with c set bits produce n + c steps |
| LoopSchedule.CountDoublingAppend | pairing/src/bls12_381/mod.rs:499-512 | doubling steps are counted additively over concatenation |
| LoopSchedule.PopCountOfTail | pairing/src/bls12_381/mod.rs:35 | BLS_X >> 1 without its leading bit has 5 set bits |
| LoopSchedule.TailBitsShape | pairing/src/bls12_381/mod.rs:35-36 | after the leading one of BLS_X >> 1 the loops see 62 bits, 5 of them set |
| LoopSchedule.ScheduleLength | pairing/src/bls12_381/mod.rs:498-512 | 62 doublings, 5 additions and the final doubling: 67 steps in the loop and 68 triples in all |
| G2Preparation.Replay | pairing/src/bls12_381/mod.rs:495-512 | replaying steps produces one coefficient triple per step |
| G2Preparation.ReplayBodySnoc | pairing/src/bls12_381/mod.rs:505-509 | one more bit pushes a doubling triple and, for a set bit, an addition triple, from the point left by the earlier bits |
| G2Preparation.PrepareBits | pairing/src/bls12_381/mod.rs:495-510 | the bit loop ignores everything up to the first set bit and then pushes exactly the triples of the step schedule of the remaining bits |
| G2Preparation.PreparedCoeffs | pairing/src/bls12_381/mod.rs:495-517 | a prepared non-identity point carries 68 triples |
| G2Preparation.FromAffine | pairing/src/bls12_381/mod.rs:347-518 | the identity gives an empty, flagged preparation; any other point gets the 68 triples of the whole schedule, unflagged |
| MillerLoop.Surviving | pairing/src/bls12_381/mod.rs:225-230 | a term yields a pair exactly when neither point is the identity: every kept pair comes from such a term and every such term is kept, a single term gives one pair or none accordingly, and there are never more pairs than terms |
| MillerLoop.CollectPairs | pairing/src/bls12_381/mod.rs:224-230 | the push loop builds exactly the filtered list of pairs |
| MillerLoop.SurvivingAppend | pairing/src/bls12_381/mod.rs:225-230 | filtering a concatenation concatenates the filtered parts, so with the one-term case the pairs are the kept terms in their original order and multiplicity |
| MillerLoop.LineProductSnoc | pairing/src/bls12_381/mod.rs:256-258 | a further pair multiplies the product of one slot by its own line element |
| MillerLoop.LinePass | pairing/src/bls12_381/mod.rs:256-258 | one pass of ell succeeds exactly when every pair still has a triple at the slot, and multiplies by the product of all their line elements |
| MillerLoop.WeightedShift | pairing/src/bls12_381/mod.rs:266 | squaring the accumulator adds one doubling to the weight of every earlier slot |
| MillerLoop.SnocWeights | pairing/src/bls12_381/mod.rs:256-266 | one more bit adds one or two slots, and every earlier slot gains one doubling after it |
| MillerLoop.MillerBitStep | pairing/src/bls12_381/mod.rs:256-266 | one iteration of the bit loop keeps the accumulator equal to the closed form over the slots so far |
| MillerLoop.MillerLastStep | pairing/src/bls12_381/mod.rs:269-271 | the pass after the loop for the final doubling triple completes the closed form over the whole schedule |
| MillerLoop.EnoughMonotone | pairing/src/bls12_381/mod.rs:256-271 | pairs with triples for n slots have them for every smaller number |
| MillerLoop.MillerIteration | pairing/src/bls12_381/mod.rs:256-266 | an iteration fails exactly when some pair runs out of triples, and otherwise moves the accumulator to the closed form for one more bit |
| MillerLoop.MillerBits | pairing/src/bls12_381/mod.rs:249-267 | the bit loop ignores bits up to the leading one, fails exactly when a pair runs out, and otherwise yields the closed form of the remaining bits' schedule |
| MillerLoop.WeightedOfNoPairs | pairing/src/bls12_381/mod.rs:247 | with no pairs every partial closed form is one |
| MillerLoop.MillerValueOfNoPairs | pairing/src/bls12_381/mod.rs:247-277 | with no surviving pairs the loop returns one |
| MillerLoop.NoSurvivors | pairing/src/bls12_381/mod.rs:225-230 | terms whose P or Q is the identity are all dropped |
| MillerLoop.PreparedTermsSuffice | pairing/src/bls12_381/mod.rs:225-230 | when every non-identity prepared point carries 68 triples, no coeffs.next() can fail |
| MillerLoop.MultiMillerLoop | pairing/src/bls12_381/mod.rs:224-278 | succeeds exactly when every surviving pair has 68 triples, then equals the conjugated closed-form product, and is one when all terms involve an identity |
| Pairing.FinalExponentiation | pairing/src/bls12_381/mod.rs:284-339 | succeeds exactly when the Miller value is invertible |
| Pairing.ShiftBackRestores | pairing/src/bls12_381/mod.rs:307-310 | shifting x right and then left in a u64 gives x back, since its low bit is clear |
| Pairing.ExpByX | pairing/src/bls12_381/mod.rs:296-301 | under the field laws, since x is negative, exp_by_x is the x-th power of the conjugate (the inverse on the cyclotomic subgroup), and it maps one to one |
| Pairing.ExpByXMul | pairing/src/bls12_381/mod.rs:296-301 | exp_by_x of a product is the product of the exp_by_x of the factors |
| Pairing.FinalExponentiationOfOne | pairing/src/bls12_381/mod.rs:284-339 | the final exponentiation of one succeeds and is the identity of Gt |
| Pairing.Pairing | pairing/src/bls12_381/mod.rs:215-217 | an identity input on either side gives the Gt identity; otherwise the result is the final exponentiation of the Miller value of the single prepared pair |

## Left out

**Cryptographic primitives, taken as parameters**

- ChaCha20-Poly1305, BLAKE2b (`kdf_sapling`, `prf_ock`) and `sapling_ka_agree`. These are primitives outside the core. Their results enter as parameters: the key of each decryption routine, `ock`, `Recovery.noteKey`. The AEAD is known only through `NotePlaintext.Lawful`.
- Jubjub point arithmetic. The checks at the end of `parse_note_plaintext_without_memo` and of recovery are the predicates `recipientChecks` and `Recovery.senderChecks`. They cover `g_d`, `pk_d` from `ivk`, the note commitment and the `epk` or `esk` comparison.
- NotePlaintext.ParseNotePlaintextWithoutMemo, NotePlaintext.TrySaplingNoteDecryption, NotePlaintext.TrySaplingCompactNoteDecryption and NotePlaintext.TrySaplingOutputRecoveryWithOck: they return the plaintext fields (`CompactNote`: diversifier, value, rseed) and the memo. The source returns a `Note` and the recipient `PaymentAddress` instead (`zcash_primitives/src/note_encryption.rs:349`, 427, 470 and 499). The `Note` carries `g_d` and `pk_d`, and both values hold Jubjub points, which are outside this model.
- `try_sapling_output_recovery`. It only derives `ock` with `prf_ock` and forwards to `try_sapling_output_recovery_with_ock`, which is modelled.

**Field arithmetic and bilinearity**

- The Fq, Fq2, Fq6 and Fq12 representations, `mul_by_014`, `frobenius_map` and `pow_vartime`. They are abstract: `Fq12Ops` with its laws, and `Fq12Algebra.Pow` for `pow_vartime`.
- Bilinearity of the pairing. It depends on that field and curve arithmetic, so it is not stated.
- `doubling_step` and `addition_step`. These are uninterpreted functions of the G2 point. The model fixes their order and number, not their arithmetic.
- Pairing.FinalExponentiation: only its failure condition and its value at one are proved. Its steps are transcribed in order, but what they compute is not stated.

**Constant time and formatting**

- Constant-time behaviour and `conditional_select`. The model states the value computed, not the timing. `TargetGroup.Mul` selects with an ordinary conditional.
- `Gt`'s `Display`, and `random` and `generator`. Display is formatting. `random` and `generator` are `unimplemented!()` in the source.
- Formatter write errors in `fmt_colon_delimited_hex`. The rendering is modelled as a total string result.

**Inputs and panics**

- `SaplingNoteEncryption::new` draws `esk` from a random number generator. `esk` is a parameter of the encryption functions instead.
- Panics:
  - The `assert_eq!` length checks on inputs are preconditions.
  - Failed unwraps that inputs can trigger are `None`.
  - NotePlaintext.TrySaplingNoteDecryption and NotePlaintext.TrySaplingOutputRecoveryWithOck: an AEAD open that succeeds with a plaintext of the wrong length panics in the source (the `assert_eq!` at `zcash_primitives/src/note_encryption.rs:434-445`, and at 504-509 and 525-536 in recovery) but is `None` here. Under `NotePlaintext.Lawful` such a plaintext cannot occur.
- `Utf8Error::error_len`. Only `valid_up_to` is carried in a failed `to_utf8`.

**Constants and integer widths**

- Zip212.GracePeriodEnd: computed without u32 wrap-around. The Canopy activation height plus 32256 fits in a u32 on every real network.
- `ZIP212_GRACE_PERIOD` is 32256 blocks, as ZIP 212 fixes it. `zcash_primitives/src/consensus.rs` is not part of this model.

**Other files**

- `zcash_proofs/src/prover.rs` is a caller of the engine and is not part of this model.

=== FILE: bits.dfy ===
/** Most-significant-first bit streams, as produced by ff's BitIterator over a
    u64 limb and by walking a little-endian scalar representation backwards. */
module Bits {
  import opened Bytes

  function Pow2(n: nat): (p: nat)
    ensures p >= 1
  {
    if n == 0 then 1 else 2 * Pow2(n - 1)
  }

  function BitValue(b: bool): nat
  {
    if b then 1 else 0
  }

  /** The low n bits of x, most significant first (x modulo 2^n). */
  function BeBits(x: nat, n: nat): (bs: seq<bool>)
    ensures |bs| == n
  {
    if n == 0 then [] else BeBits(x / 2, n - 1) + [x % 2 == 1]
  }

  /** The number a most-significant-first bit string denotes. */
  function BeValue(bs: seq<bool>): nat
  {
    if bs == [] then 0 else 2 * BeValue(bs[..|bs| - 1]) + BitValue(bs[|bs| - 1])
  }

  function CountTrue(bs: seq<bool>): nat
  {
    if bs == [] then 0 else CountTrue(bs[..|bs| - 1]) + BitValue(bs[|bs| - 1])
  }

  function PopCount(x: nat): nat
  {
    if x == 0 then 0 else PopCount(x / 2) + x % 2
  }

  /** The bits that follow the first set bit; empty when no bit is set. */
  function AfterLeadingOne(bs: seq<bool>): seq<bool>
  {
    if bs == [] then [] else if bs[0] then bs[1..] else AfterLeadingOne(bs[1..])
  }

  /** Skipping bit i while looking for the leading one. */
  lemma AfterLeadingOneAt(bits: seq<bool>, i: nat)
    requires i < |bits|
    ensures AfterLeadingOne(bits[i..]) == if bits[i] then bits[i + 1..] else AfterLeadingOne(bits[i + 1..])
  {
    assert bits[i..][1..] == bits[i + 1..];
  }

  /** Moving bit i from the unprocessed bits to the processed ones. */
  lemma ShiftBit(done: seq<bool>, bits: seq<bool>, i: nat)
    requires i < |bits|
    ensures done + bits[i..] == (done + [bits[i]]) + bits[i + 1..]
  {
    assert bits[i..] == [bits[i]] + bits[i + 1..];
  }

  lemma Pow2Add(a: nat, b: nat)
    ensures Pow2(a + b) == Pow2(a) * Pow2(b)
  {
    if b > 0 {
      Pow2Add(a, b - 1);
    }
  }

  lemma {:induction false} Pow2Bytes(n: nat)
    ensures Pow2(8 * n) == Pow256(n)
  {
    if n > 0 {
      Pow2Bytes(n - 1);
      Pow2Add(8 * (n - 1), 8);
    }
  }

  lemma {:induction false} BeValueSnoc(bs: seq<bool>, b: bool)
    ensures BeValue(bs + [b]) == 2 * BeValue(bs) + BitValue(b)
    ensures CountTrue(bs + [b]) == CountTrue(bs) + BitValue(b)
  {
    assert (bs + [b])[..|bs|] == bs;
  }

  lemma {:induction false} BeValueBound(bs: seq<bool>)
    ensures BeValue(bs) < Pow2(|bs|)
  {
    if bs != [] {
      BeValueBound(bs[..|bs| - 1]);
    }
  }

  lemma {:induction false} CountTrueAppend(a: seq<bool>, b: seq<bool>)
    ensures CountTrue(a + b) == CountTrue(a) + CountTrue(b)
  {
    if b != [] {
      var b' := b[..|b| - 1];
      assert a + b == (a + b') + [b[|b| - 1]];
      assert b == b' + [b[|b| - 1]];
      CountTrueAppend(a, b');
      BeValueSnoc(a + b', b[|b| - 1]);
      BeValueSnoc(b', b[|b| - 1]);
    } else {
      assert a + b == a;
    }
  }

  /** Concatenation shifts the first part left by the length of the second. */
  lemma {:induction false} BeValueAppend(a: seq<bool>, b: seq<bool>)
    ensures BeValue(a + b) == BeValue(a) * Pow2(|b|) + BeValue(b)
    ensures CountTrue(a + b) == CountTrue(a) + CountTrue(b)
  {
    CountTrueAppend(a, b);
    if b == [] {
      assert a + b == a;
    } else {
      var b' := b[..|b| - 1];
      var last := b[|b| - 1];
      assert a + b == (a + b') + [last];
      assert b == b' + [last];
      BeValueAppend(a, b');
      var va, p, vb' := BeValue(a), Pow2(|b'|), BeValue(b');
      assert BeValue(a + b) == 2 * (va * p + vb') + BitValue(last) by {
        BeValueSnoc(a + b', last);
      }
      assert BeValue(b) == 2 * vb' + BitValue(last) by {
        BeValueSnoc(b', last);
      }
      assert Pow2(|b|) == 2 * p;
      ShiftStep(va, p, vb', BitValue(last));
    }
  }

  lemma ShiftStep(v: int, p: int, w: int, bit: int)
    ensures 2 * (v * p + w) + bit == v * (2 * p) + (2 * w + bit)
  {
  }

  /** Dropping the leading bit reduces the value modulo 2^(length - 1). */
  lemma BeValueDropFirst(bs: seq<bool>)
    requires bs != []
    ensures BeValue(bs[1..]) == BeValue(bs) % Pow2(|bs| - 1)
  {
    var rest := bs[1..];
    assert bs == [bs[0]] + rest;
    BeValueAppend([bs[0]], rest);
    assert BeValue([bs[0]]) == BitValue(bs[0]) by {
      assert [bs[0]][..0] == [];
    }
    BeValueBound(rest);
    ModOfMultipleShift(BitValue(bs[0]), Pow2(|rest|), BeValue(rest));
  }

  lemma ModOfMultipleShift(k: nat, p: nat, r: nat)
    requires r < p
    ensures (k * p + r) % p == r
  {
    DivModUnique(k * p + r, p, k, r);
  }

  lemma MulAtLeast(a: int, d: int)
    requires a >= 1 && d > 0
    ensures a * d >= d
  {
    assert a * d == (a - 1) * d + d;
    assert (a - 1) * d >= 0;
  }

  /** Quotient and remainder are determined by x == q * d + r with 0 <= r < d. */
  lemma DivModUnique(x: int, d: int, q: int, r: int)
    requires 0 <= r < d && x == q * d + r
    ensures x % d == r && x / d == q
  {
    var q2, r2 := x / d, x % d;
    assert x == q2 * d + r2;
    assert (q - q2) * d == r2 - r;
    if q > q2 {
      MulAtLeast(q - q2, d);
    } else if q < q2 {
      assert (q2 - q) * d == r - r2;
      MulAtLeast(q2 - q, d);
    }
  }

  /** The set bits of a * 2^k + b, with b below 2^k, are those of a and those of b. */
  lemma {:induction false} PopCountSplit(a: nat, b: nat, k: nat)
    requires b < Pow2(k)
    ensures PopCount(a * Pow2(k) + b) == PopCount(a) + PopCount(b)
  {
    if k == 0 {
      assert b == 0;
    } else {
      var x := a * Pow2(k) + b;
      var hi := a * Pow2(k - 1);
      assert a * Pow2(k) == 2 * hi;
      assert b == 2 * (b / 2) + b % 2;
      DivModUnique(x, 2, hi + b / 2, b % 2);
      assert b / 2 < Pow2(k - 1);
      PopCountSplit(a, b / 2, k - 1);
      if x == 0 {
        assert a * Pow2(k) == 0 && b == 0;
        if a != 0 { MulAtLeast(a, Pow2(k)); }
      }
    }
  }

  /** BeBits is the inverse of BeValue on n-bit numbers. */
  lemma {:induction false} BeValueOfBeBits(x: nat, n: nat)
    ensures BeValue(BeBits(x, n)) == x % Pow2(n)
  {
    if n > 0 {
      var bs := BeBits(x, n);
      assert bs[..n - 1] == BeBits(x / 2, n - 1);
      BeValueOfBeBits(x / 2, n - 1);
      assert (x / 2) % Pow2(n - 1) * 2 + x % 2 == x % Pow2(n) by {
        DivModPow2(x, n);
      }
    }
  }

  lemma DivModPow2(x: nat, n: nat)
    requires n > 0
    ensures (x / 2) % Pow2(n - 1) * 2 + x % 2 == x % Pow2(n)
  {
    var p := Pow2(n - 1);
    var q := (x / 2) / p;
    var r := (x / 2) % p;
    assert x / 2 == q * p + r;
    assert x == 2 * (x / 2) + x % 2;
    assert x == q * (2 * p) + (2 * r + x % 2);
    assert 0 <= 2 * r + x % 2 < 2 * p;
    DivModUnique(x, 2 * p, q, 2 * r + x % 2);
  }

  /** Counting set bits of a bit string agrees with PopCount on its value. */
  lemma {:induction false} CountTrueOfBeBits(x: nat, n: nat)
    requires x < Pow2(n)
    ensures CountTrue(BeBits(x, n)) == PopCount(x)
  {
    if n > 0 {
      var bs := BeBits(x, n);
      assert bs[..n - 1] == BeBits(x / 2, n - 1);
      CountTrueOfBeBits(x / 2, n - 1);
    }
  }

  /** A number below 2^n has a clear leading bit in its n+1-bit form. */
  lemma {:induction false} BeBitsLeadingZero(x: nat, n: nat)
    requires x < Pow2(n)
    ensures BeBits(x, n + 1) == [false] + BeBits(x, n)
  {
    if n > 0 {
      BeBitsLeadingZero(x / 2, n - 1);
    }
  }

  /** A number in [2^n, 2^(n+1)) has a set leading bit followed by the rest. */
  lemma {:induction false} BeBitsLeadingOne(x: nat, n: nat)
    requires Pow2(n) <= x < Pow2(n + 1)
    ensures BeBits(x, n + 1) == [true] + BeBits(x - Pow2(n), n)
  {
    if n > 0 {
      assert (x - Pow2(n)) / 2 == x / 2 - Pow2(n - 1);
      assert (x - Pow2(n)) % 2 == x % 2;
      BeBitsLeadingOne(x / 2, n - 1);
    }
  }

  /** Leading zeros are skipped while looking for the first set bit. */
  lemma {:induction false} AfterLeadingOneOfPadded(x: nat, n: nat, m: nat)
    requires Pow2(n) <= x < Pow2(n + 1)
    ensures AfterLeadingOne(BeBits(x, n + 1 + m)) == BeBits(x - Pow2(n), n)
  {
    if m == 0 {
      var t := BeBits(x - Pow2(n), n);
      BeBitsLeadingOne(x, n);
      assert ([true] + t)[1..] == t;
    } else {
      PaddedBound(x, n, m);
      var t := BeBits(x, n + m);
      BeBitsLeadingZero(x, n + m);
      assert BeBits(x, n + 1 + m) == [false] + t;
      assert ([false] + t)[1..] == t;
      AfterLeadingOneOfPadded(x, n, m - 1);
    }
  }

  lemma PaddedBound(x: nat, n: nat, m: nat)
    requires x < Pow2(n + 1) && m > 0
    ensures x < Pow2(n + m)
  {
    Pow2Add(n + 1, m - 1);
    MulAtLeast(Pow2(m - 1), Pow2(n + 1));
  }

  /** The bits of a little-endian byte string, most significant byte first
      and each byte from bit 7 down to bit 0. */
  function ReprBits(repr: seq<uint8>): (bs: seq<bool>)
    ensures |bs| == 8 * |repr|
  {
    if repr == [] then [] else BeBits(repr[|repr| - 1], 8) + ReprBits(repr[..|repr| - 1])
  }

  lemma {:induction false} BeValueOfReprBits(repr: seq<uint8>)
    ensures BeValue(ReprBits(repr)) == LeValue(repr)
  {
    if repr != [] {
      var n := |repr|;
      var rest := repr[..n - 1];
      var last := repr[n - 1];
      var hi, lo := BeBits(last, 8), ReprBits(rest);
      assert ReprBits(repr) == hi + lo;
      BeValueAppend(hi, lo);
      LastByteValue(last);
      BeValueOfReprBits(rest);
      Pow2Bytes(n - 1);
      LeValueSplitLast(repr);
      var p := Pow256(n - 1);
      assert BeValue(hi + lo) == last * p + LeValue(rest);
      assert LeValue(repr) == LeValue(rest) + p * last;
    }
  }

  lemma LastByteValue(b: uint8)
    ensures BeValue(BeBits(b, 8)) == b
  {
    BeValueOfBeBits(b, 8);
    assert Pow2(8) == 0x100;
  }
}

=== FILE: bytes.dfy ===
/** Fixed-width integers and little-endian byte strings. */
module Bytes {

  type uint8 = x: int | 0 <= x < 0x100
  type uint32 = x: int | 0 <= x < 0x1_0000_0000
  type uint64 = x: int | 0 <= x < 0x1_0000_0000_0000_0000

  /** n zero bytes. */
  function Zeros(n: nat): (z: seq<uint8>)
    ensures |z| == n
    ensures forall i | 0 <= i < n :: z[i] == 0
  {
    seq(n, _ => 0)
  }

  /** 256^n. */
  function Pow256(n: nat): (p: nat)
    ensures p >= 1
  {
    if n == 0 then 1 else 0x100 * Pow256(n - 1)
  }

  /** The number a byte string denotes when byte 0 is the least significant. */
  function LeValue(s: seq<uint8>): nat
  {
    if s == [] then 0 else s[0] + 0x100 * LeValue(s[1..])
  }

  /** The n-byte little-endian encoding of v, keeping v modulo 256^n. */
  function LeBytes(v: nat, n: nat): (s: seq<uint8>)
    ensures |s| == n
  {
    if n == 0 then [] else [v % 0x100] + LeBytes(v / 0x100, n - 1)
  }

  lemma {:induction false} LeValueBound(s: seq<uint8>)
    ensures LeValue(s) < Pow256(|s|)
  {
    if s != [] {
      LeValueBound(s[1..]);
    }
  }

  /** Decoding an encoding gives the encoded number back when it fits. */
  lemma {:induction false} LeValueOfLeBytes(v: nat, n: nat)
    requires v < Pow256(n)
    ensures LeValue(LeBytes(v, n)) == v
  {
    if n > 0 {
      var s := LeBytes(v, n);
      assert s[1..] == LeBytes(v / 0x100, n - 1);
      LeValueOfLeBytes(v / 0x100, n - 1);
    }
  }

  /** Encoding the value of a byte string gives the byte string back. */
  lemma {:induction false} LeBytesOfLeValue(s: seq<uint8>)
    ensures LeBytes(LeValue(s), |s|) == s
  {
    if s != [] {
      LeBytesOfLeValue(s[1..]);
      var v := LeValue(s);
      assert v % 0x100 == s[0] && v / 0x100 == LeValue(s[1..]);
    }
  }

  /** The value splits off its most significant (last) byte. */
  lemma {:induction false} LeValueSplitLast(s: seq<uint8>)
    requires s != []
    ensures LeValue(s) == LeValue(s[..|s| - 1]) + Pow256(|s| - 1) * s[|s| - 1]
  {
    if |s| > 1 {
      var t := s[1..];
      LeValueSplitLast(t);
      assert t[..|t| - 1] == s[..|s| - 1][1..];
      assert s[..|s| - 1][0] == s[0];
    }
  }

  lemma {:induction false} Pow256Add(a: nat, b: nat)
    ensures Pow256(a + b) == Pow256(a) * Pow256(b)
  {
    if b > 0 {
      Pow256Add(a, b - 1);
    }
  }

  lemma Pow256Of8()
    ensures Pow256(8) == 0x1_0000_0000_0000_0000
  {
  }

  /** An 8-byte little-endian field holds exactly the uint64 range. */
  lemma U64RoundTrip(v: uint64)
    ensures |LeBytes(v, 8)| == 8
    ensures LeValue(LeBytes(v, 8)) == v
  {
    Pow256Of8();
    LeValueOfLeBytes(v, 8);
  }
}

=== FILE: fq12.dfy ===
/** The degree-12 extension field of BLS12-381, kept abstract.

    The field tower itself (Fq, Fq2, Fq6, Fq12) is not part of this model: an
    element type T comes with the operations the target group and the pairing
    use, and the ghost predicate Lawful states the algebraic facts about them
    that the proofs rely on. */
module Fq12Algebra {
  import opened Wrappers

  /** The Fq12 operations used by the target group and the pairing engine. */
  datatype Fq12Ops<!T> = Fq12Ops(
    one: T,
    mul: (T, T) -> T,
    square: T -> T,
    conjugate: T -> T,
    frobenius: (T, nat) -> T,
    invert: T -> Option<T>)

  ghost predicate Associates<T>(F: Fq12Ops<T>, a: T, b: T, c: T)
  {
    F.mul(F.mul(a, b), c) == F.mul(a, F.mul(b, c))
  }

  ghost predicate Commutes<T>(F: Fq12Ops<T>, a: T, b: T)
  {
    F.mul(a, b) == F.mul(b, a)
  }

  ghost predicate ConjugateDistributes<T>(F: Fq12Ops<T>, a: T, b: T)
  {
    F.conjugate(F.mul(a, b)) == F.mul(F.conjugate(a), F.conjugate(b))
  }

  ghost predicate InvertsTo<T>(F: Fq12Ops<T>, a: T, b: T)
  {
    F.invert(a) == Some(b) <==> F.mul(a, b) == F.one
  }

  /** Facts about Fq12 multiplication: a commutative monoid in which squaring is
      self-multiplication, conjugation is an involutive monoid automorphism,
      every Frobenius power fixes one, and invert returns b exactly when b is
      the inverse. The associativity, commutativity, conjugation and inverse
      laws are applied through the lemmas below, which keeps the solver from
      rewriting products on its own. */
  ghost predicate Lawful<T(!new)>(F: Fq12Ops<T>)
  {
    && (forall a, b, c :: Associates(F, a, b, c))
    && (forall a, b :: Commutes(F, a, b))
    && (forall a :: F.mul(a, F.one) == a)
    && (forall a :: F.square(a) == F.mul(a, a))
    && (forall a, b :: ConjugateDistributes(F, a, b))
    && F.conjugate(F.one) == F.one
    && (forall a :: F.conjugate(F.conjugate(a)) == a)
    && (forall k :: F.frobenius(F.one, k) == F.one)
    && (forall a, b :: InvertsTo(F, a, b))
  }

  lemma MulAssoc<T(!new)>(F: Fq12Ops<T>, a: T, b: T, c: T)
    requires Lawful(F)
    ensures F.mul(F.mul(a, b), c) == F.mul(a, F.mul(b, c))
  {
    assert Associates(F, a, b, c);
  }

  lemma MulComm<T(!new)>(F: Fq12Ops<T>, a: T, b: T)
    requires Lawful(F)
    ensures F.mul(a, b) == F.mul(b, a)
  {
    assert Commutes(F, a, b);
  }

  lemma ConjugateMul<T(!new)>(F: Fq12Ops<T>, a: T, b: T)
    requires Lawful(F)
    ensures F.conjugate(F.mul(a, b)) == F.mul(F.conjugate(a), F.conjugate(b))
  {
    assert ConjugateDistributes(F, a, b);
  }

  lemma InvertSpec<T(!new)>(F: Fq12Ops<T>, a: T, b: T)
    requires Lawful(F)
    ensures F.invert(a) == Some(b) <==> F.mul(a, b) == F.one
  {
    assert InvertsTo(F, a, b);
  }

  lemma OneIsLeftUnit<T(!new)>(F: Fq12Ops<T>, a: T)
    requires Lawful(F)
    ensures F.mul(F.one, a) == a
  {
    MulComm(F, F.one, a);
  }

  /** x^n by repeated multiplication; pow_vartime computes this value. */
  function Pow<T>(F: Fq12Ops<T>, x: T, n: nat): T
  {
    if n == 0 then F.one else F.mul(Pow(F, x, n - 1), x)
  }

  lemma {:induction false} PowOfOne<T(!new)>(F: Fq12Ops<T>, n: nat)
    requires Lawful(F)
    ensures Pow(F, F.one, n) == F.one
  {
    if n > 0 {
      PowOfOne(F, n - 1);
    }
  }

  lemma PowOfOneExponent<T(!new)>(F: Fq12Ops<T>, x: T)
    requires Lawful(F)
    ensures Pow(F, x, 1) == x
  {
    assert Pow(F, x, 1) == F.mul(F.one, x);
    OneIsLeftUnit(F, x);
  }

  /** x^(a+b) == x^a * x^b. */
  lemma {:induction false} PowAdd<T(!new)>(F: Fq12Ops<T>, x: T, a: nat, b: nat)
    requires Lawful(F)
    ensures Pow(F, x, a + b) == F.mul(Pow(F, x, a), Pow(F, x, b))
  {
    if b > 0 {
      PowAdd(F, x, a, b - 1);
      MulAssoc(F, Pow(F, x, a), Pow(F, x, b - 1), x);
    }
  }

  /** x^(2n) is the square of x^n. */
  lemma PowDouble<T(!new)>(F: Fq12Ops<T>, x: T, n: nat)
    requires Lawful(F)
    ensures Pow(F, x, 2 * n) == F.square(Pow(F, x, n))
  {
    PowAdd(F, x, n, n);
  }

  /** x^(a*b) == (x^a)^b. */
  lemma {:induction false} PowMul<T(!new)>(F: Fq12Ops<T>, x: T, a: nat, b: nat)
    requires Lawful(F)
    ensures Pow(F, x, a * b) == Pow(F, Pow(F, x, a), b)
  {
    if b > 0 {
      PowMul(F, x, a, b - 1);
      assert a * b == a * (b - 1) + a;
      PowAdd(F, x, a * (b - 1), a);
    }
  }

  /** Squaring distributes over multiplication. */
  lemma SquareOfMul<T(!new)>(F: Fq12Ops<T>, a: T, b: T)
    requires Lawful(F)
    ensures F.square(F.mul(a, b)) == F.mul(F.square(a), F.square(b))
  {
    var ab := F.mul(a, b);
    calc {
      F.square(ab);
      F.mul(ab, ab);
      { MulAssoc(F, a, b, ab); }
      F.mul(a, F.mul(b, ab));
      { MulComm(F, b, ab); MulAssoc(F, a, b, b); }
      F.mul(a, F.mul(a, F.mul(b, b)));
      { MulAssoc(F, a, a, F.mul(b, b)); }
      F.mul(F.mul(a, a), F.mul(b, b));
    }
  }

  /** Powers distribute over products: (a*b)^n == a^n * b^n. */
  lemma {:induction false} PowOfMul<T(!new)>(F: Fq12Ops<T>, a: T, b: T, n: nat)
    requires Lawful(F)
    ensures Pow(F, F.mul(a, b), n) == F.mul(Pow(F, a, n), Pow(F, b, n))
  {
    if n > 0 {
      var an := Pow(F, a, n - 1);
      var bn := Pow(F, b, n - 1);
      PowOfMul(F, a, b, n - 1);
      calc {
        Pow(F, F.mul(a, b), n);
        F.mul(F.mul(an, bn), F.mul(a, b));
        { MulAssoc(F, an, bn, F.mul(a, b)); }
        F.mul(an, F.mul(bn, F.mul(a, b)));
        { MulComm(F, a, b); MulAssoc(F, bn, b, a); MulComm(F, F.mul(bn, b), a); }
        F.mul(an, F.mul(a, F.mul(bn, b)));
        { MulAssoc(F, an, a, F.mul(bn, b)); }
        F.mul(F.mul(an, a), F.mul(bn, b));
      }
    }
  }

  /** Conjugation commutes with powers. */
  lemma {:induction false} ConjugatePow<T(!new)>(F: Fq12Ops<T>, x: T, n: nat)
    requires Lawful(F)
    ensures F.conjugate(Pow(F, x, n)) == Pow(F, F.conjugate(x), n)
  {
    if n > 0 {
      ConjugatePow(F, x, n - 1);
      ConjugateMul(F, Pow(F, x, n - 1), x);
    }
  }
}

=== FILE: g2prep.dfy ===
/** G2Prepared::from_affine: the precomputed line coefficients for a G2 point.
    The point arithmetic of the two line steps (Algorithms 26 and 27 of
    eprint 2010/354) is kept uninterpreted; what is modelled is the order in
    which the steps run and hence which triple sits at which slot. */
module G2Preparation {
  import opened Bits
  import opened LoopSchedule

  /** The G2 side of the loop: the identity test on affine points, the
      conversion to projective form, and the two steps, each of which returns
      the updated point and one coefficient triple. */
  datatype LineSteps<!A, !P, !C> = LineSteps(
    isIdentity: A -> bool,
    toProjective: A -> P,
    doublingStep: P -> (P, C),
    additionStep: (P, A) -> (P, C))

  datatype G2Prepared<C> = G2Prepared(coeffs: seq<C>, infinity: bool)

  predicate IsIdentity<C>(q: G2Prepared<C>)
  {
    q.infinity
  }

  /** Running the steps in order from q: the final point and the triples. */
  function Replay<A, P, C>(L: LineSteps<A, P, C>, q: A, steps: seq<Step>): (res: (P, seq<C>))
    ensures |res.1| == |steps|
  {
    if steps == [] then (L.toProjective(q), [])
    else
      var prev := Replay(L, q, steps[..|steps| - 1]);
      var next := if steps[|steps| - 1] == Doubling then L.doublingStep(prev.0) else L.additionStep(prev.0, q);
      (next.0, prev.1 + [next.1])
  }

  lemma ReplaySnoc<A, P, C>(L: LineSteps<A, P, C>, q: A, steps: seq<Step>, s: Step)
    ensures var prev := Replay(L, q, steps);
            var next := if s == Doubling then L.doublingStep(prev.0) else L.additionStep(prev.0, q);
            Replay(L, q, steps + [s]) == (next.0, prev.1 + [next.1])
  {
    assert (steps + [s])[..|steps|] == steps;
  }

  /** One bit of the loop: a doubling step, then an addition step when the bit is set. */
  lemma ReplayBodySnoc<A, P, C>(L: LineSteps<A, P, C>, q: A, bits: seq<bool>, b: bool)
    ensures var prev := Replay(L, q, Body(bits));
            var d := L.doublingStep(prev.0);
            var a := L.additionStep(d.0, q);
            Replay(L, q, Body(bits + [b]))
              == if b then (a.0, prev.1 + [d.1] + [a.1]) else (d.0, prev.1 + [d.1])
  {
    BodySnoc(bits, b);
    ReplaySnoc(L, q, Body(bits), Doubling);
    if b {
      assert Body(bits + [b]) == (Body(bits) + [Doubling]) + [Addition];
      ReplaySnoc(L, q, Body(bits) + [Doubling], Addition);
    } else {
      assert Body(bits + [b]) == Body(bits) + [Doubling];
    }
  }

  /** The bit loop of from_affine over any bit string: bits up to and
      including the first set bit are skipped, then each bit runs a doubling
      step and, when set, an addition step. */
  method PrepareBits<A, P, C>(L: LineSteps<A, P, C>, q: A, bits: seq<bool>) returns (r: P, coeffs: seq<C>)
    ensures (r, coeffs) == Replay(L, q, Body(AfterLeadingOne(bits)))
  {
    coeffs := [];
    r := L.toProjective(q);
    var foundOne := false;
    ghost var tail := AfterLeadingOne(bits);
    ghost var done: seq<bool> := [];
    var i := 0;
    while i < |bits|
      invariant 0 <= i <= |bits|
      invariant !foundOne ==> AfterLeadingOne(bits[i..]) == tail && done == []
      invariant foundOne ==> tail == done + bits[i..]
      invariant (r, coeffs) == Replay(L, q, Body(done))
    {
      if !foundOne {
        AfterLeadingOneAt(bits, i);
        assert done + bits[i + 1..] == bits[i + 1..];
        foundOne := bits[i];
      } else {
        ShiftBit(done, bits, i);
        ReplayBodySnoc(L, q, done, bits[i]);
        var d := L.doublingStep(r);
        r, coeffs := d.0, coeffs + [d.1];
        if bits[i] {
          var a := L.additionStep(r, q);
          r, coeffs := a.0, coeffs + [a.1];
        }
        done := done + [bits[i]];
      }
      i := i + 1;
    }
    assert bits[i..] == [];
    assert done + [] == done;
  }

  /** The triples of a non-identity point: the whole schedule replayed from it. */
  function PreparedCoeffs<A, P, C>(L: LineSteps<A, P, C>, q: A): (coeffs: seq<C>)
    ensures |coeffs| == 68
  {
    ScheduleLength();
    Replay(L, q, Schedule(TailBits())).1
  }

  /** The triples for the identity point are empty and it is flagged as
      infinity; every other point gets the 68 triples of the fixed schedule. */
  method FromAffine<A, P, C>(L: LineSteps<A, P, C>, q: A) returns (prepared: G2Prepared<C>)
    ensures IsIdentity(prepared) <==> L.isIdentity(q)
    ensures L.isIdentity(q) ==> prepared.coeffs == []
    ensures !L.isIdentity(q) ==> prepared.coeffs == PreparedCoeffs(L, q)
  {
    if L.isIdentity(q) {
      return G2Prepared([], true);
    }
    var r, coeffs := PrepareBits(L, q, LoopBits());
    var d := L.doublingStep(r);
    coeffs := coeffs + [d.1];
    ReplaySnoc(L, q, Body(TailBits()), Doubling);
    ScheduleLength();
    return G2Prepared(coeffs, false);
  }
}

=== FILE: gt.dfy ===
/** The target group Gt of the BLS12-381 pairing, written additively over the
    multiplicative group of Fq12: the group operation is Fq12 multiplication,
    doubling is squaring, negation is conjugation (the inverse on the
    cyclotomic subgroup that pairing outputs live in). */
module TargetGroup {
  import opened Bytes
  import opened Bits
  import opened Fq12Algebra

  datatype Gt<T> = Gt(inner: T)

  /** 2^255: the scalars the 255 bits below the skipped top bit can express. */
  const SCALAR_RANGE: nat := Pow2(255)

  /** The neutral element: Fq12's one, which every element absorbs. */
  function Identity<T(!new)>(F: Fq12Ops<T>): (r: Gt<T>)
    ensures Lawful(F) ==> forall x :: F.mul(x, r.inner) == x
  {
    Gt(F.one)
  }

  function IsIdentity<T(==,!new)>(F: Fq12Ops<T>, g: Gt<T>): (r: bool)
    ensures r <==> g == Identity(F)
  {
    g.inner == F.one
  }

  /** Doubling by squaring agrees with adding an element to itself. */
  function Double<T(!new)>(F: Fq12Ops<T>, g: Gt<T>): (r: Gt<T>)
    ensures Lawful(F) ==> r.inner == F.mul(g.inner, g.inner)
  {
    Gt(F.square(g.inner))
  }

  /** The group operation; under the field laws it commutes, and the identity
      on either side leaves the other operand unchanged. */
  function Add<T(!new)>(F: Fq12Ops<T>, a: Gt<T>, b: Gt<T>): (r: Gt<T>)
    ensures Lawful(F) ==> r.inner == F.mul(b.inner, a.inner)
    ensures Lawful(F) && b.inner == F.one ==> r == a
    ensures Lawful(F) && a.inner == F.one ==> r == b
  {
    assert Lawful(F) ==> Commutes(F, a.inner, b.inner);
    Gt(F.mul(a.inner, b.inner))
  }

  /** Negation undoes itself and fixes exactly the identity. */
  function Neg<T(!new)>(F: Fq12Ops<T>, a: Gt<T>): (r: Gt<T>)
    ensures Lawful(F) ==> F.conjugate(r.inner) == a.inner
    ensures Lawful(F) ==> (r.inner == F.one <==> a.inner == F.one)
  {
    Gt(F.conjugate(a.inner))
  }

  /** Subtracting the identity changes nothing. */
  function Sub<T(!new)>(F: Fq12Ops<T>, a: Gt<T>, b: Gt<T>): (r: Gt<T>)
    ensures Lawful(F) && b.inner == F.one ==> r == a
  {
    Add(F, a, Neg(F, b))
  }

  /** Iterator::sum: a left fold of Add starting from the identity. The empty
      sum is the identity, a one-element sum is that element, and a sum of
      identities is the identity. */
  function Sum<T(!new)>(F: Fq12Ops<T>, xs: seq<Gt<T>>): (r: Gt<T>)
    ensures xs == [] ==> r.inner == F.one
    ensures Lawful(F) && |xs| == 1 ==> r == xs[0]
    ensures Lawful(F) && (forall i | 0 <= i < |xs| :: xs[i].inner == F.one) ==> r.inner == F.one
  {
    if xs == [] then Identity(F) else Add(F, Sum(F, xs[..|xs| - 1]), xs[|xs| - 1])
  }

  /** The reference meaning of scalar multiplication: g added to itself n times. */
  function Times<T(!new)>(F: Fq12Ops<T>, g: Gt<T>, n: nat): Gt<T>
  {
    if n == 0 then Identity(F) else Add(F, Times(F, g, n - 1), g)
  }

  /** Add makes Gt a commutative monoid with Identity as neutral element. */
  lemma AddCommutativeMonoid<T(!new)>(F: Fq12Ops<T>, a: Gt<T>, b: Gt<T>, c: Gt<T>)
    requires Lawful(F)
    ensures Add(F, Add(F, a, b), c) == Add(F, a, Add(F, b, c))
    ensures Add(F, a, b) == Add(F, b, a)
    ensures Add(F, a, Identity(F)) == a
    ensures Add(F, Identity(F), a) == a
  {
    MulAssoc(F, a.inner, b.inner, c.inner);
    MulComm(F, a.inner, b.inner);
    OneIsLeftUnit(F, a.inner);
  }

  /** Negation is an involution and a homomorphism, and fixes the identity. */
  lemma NegLaws<T(!new)>(F: Fq12Ops<T>, a: Gt<T>, b: Gt<T>)
    requires Lawful(F)
    ensures Neg(F, Neg(F, a)) == a
    ensures Neg(F, Add(F, a, b)) == Add(F, Neg(F, a), Neg(F, b))
    ensures Neg(F, Identity(F)) == Identity(F)
  {
    ConjugateMul(F, a.inner, b.inner);
  }

  /** For an element whose conjugate is its inverse (every element of the
      cyclotomic subgroup), subtraction undoes addition. */
  lemma SubCancels<T(!new)>(F: Fq12Ops<T>, a: Gt<T>, b: Gt<T>)
    requires Lawful(F)
    requires F.mul(b.inner, F.conjugate(b.inner)) == F.one
    ensures Sub(F, b, b) == Identity(F)
    ensures Sub(F, Add(F, a, b), b) == a
  {
    MulAssoc(F, a.inner, b.inner, F.conjugate(b.inner));
  }

  /** Summing a concatenation adds the two sums; the empty sum is the identity. */
  lemma {:induction false} SumAppend<T(!new)>(F: Fq12Ops<T>, xs: seq<Gt<T>>, ys: seq<Gt<T>>)
    requires Lawful(F)
    ensures Sum(F, []) == Identity(F)
    ensures Sum(F, xs + ys) == Add(F, Sum(F, xs), Sum(F, ys))
  {
    if ys == [] {
      assert xs + ys == xs;
      AddCommutativeMonoid(F, Sum(F, xs), Sum(F, xs), Sum(F, xs));
    } else {
      var ys' := ys[..|ys| - 1];
      var y := ys[|ys| - 1];
      assert (xs + ys)[..|xs + ys| - 1] == xs + ys';
      SumAppend(F, xs, ys');
      AddCommutativeMonoid(F, Sum(F, xs), Sum(F, ys'), y);
    }
  }

  lemma {:induction false} TimesIsPow<T(!new)>(F: Fq12Ops<T>, g: Gt<T>, n: nat)
    ensures Times(F, g, n) == Gt(Pow(F, g.inner, n))
  {
    if n > 0 {
      TimesIsPow(F, g, n - 1);
    }
  }

  /** (a + b)·g == a·g + b·g and (a·b)·g == b·(a·g). */
  lemma TimesLaws<T(!new)>(F: Fq12Ops<T>, g: Gt<T>, a: nat, b: nat)
    requires Lawful(F)
    ensures Times(F, g, a + b) == Add(F, Times(F, g, a), Times(F, g, b))
    ensures Times(F, g, a * b) == Times(F, Times(F, g, a), b)
  {
    TimesIsPow(F, g, a + b);
    TimesIsPow(F, g, a);
    TimesIsPow(F, g, b);
    PowAdd(F, g.inner, a, b);
    TimesIsPow(F, g, a * b);
    TimesIsPow(F, Times(F, g, a), b);
    PowMul(F, g.inner, a, b);
  }

  lemma TimesDouble<T(!new)>(F: Fq12Ops<T>, g: Gt<T>, n: nat)
    requires Lawful(F)
    ensures Times(F, g, 2 * n) == Double(F, Times(F, g, n))
  {
    TimesLaws(F, g, n, n);
  }

  /** One double-and-add step appends one bit to the scalar processed so far. */
  lemma DoubleAndAddStep<T(!new)>(F: Fq12Ops<T>, g: Gt<T>, prefix: seq<bool>, b: bool)
    requires Lawful(F)
    ensures var d := Double(F, Times(F, g, BeValue(prefix)));
            (if b then Add(F, d, g) else d) == Times(F, g, BeValue(prefix + [b]))
  {
    BeValueSnoc(prefix, b);
    TimesDouble(F, g, BeValue(prefix));
  }

  /** Skipping the top bit of the 256-bit stream leaves the scalar modulo 2^255,
      which is the scalar itself when its top bit is clear. */
  lemma SkippedTopBit(scalar: seq<uint8>)
    requires |scalar| == 32
    ensures BeValue(ReprBits(scalar)[1..]) == LeValue(scalar) % SCALAR_RANGE
    ensures LeValue(scalar) < SCALAR_RANGE ==> LeValue(scalar) % SCALAR_RANGE == LeValue(scalar)
  {
    BeValueDropFirst(ReprBits(scalar));
    BeValueOfReprBits(scalar);
    if LeValue(scalar) < SCALAR_RANGE {
      DivModUnique(LeValue(scalar), SCALAR_RANGE, 0, LeValue(scalar));
    }
  }

  /** The double-and-add loop over a most-significant-first bit stream:
      double, then add g where the bit is set (conditional_select becomes an
      if-expression). */
  method DoubleAndAdd<T(!new)>(F: Fq12Ops<T>, g: Gt<T>, bits: seq<bool>) returns (acc: Gt<T>)
    requires Lawful(F)
    ensures acc == Times(F, g, BeValue(bits))
  {
    acc := Identity(F);
    var i := 0;
    while i < |bits|
      invariant 0 <= i <= |bits|
      invariant acc == Times(F, g, BeValue(bits[..i]))
    {
      DoubleAndAddStep(F, g, bits[..i], bits[i]);
      acc := Double(F, acc);
      acc := if bits[i] then Add(F, acc, g) else acc;
      assert bits[..i + 1] == bits[..i] + [bits[i]];
      i := i + 1;
    }
    assert bits[..i] == bits;
  }

  /** Constant-time multiplication by a scalar given as its 32-byte
      little-endian representation. The bits are walked from the most
      significant one down, skipping the top bit, which is always clear for a
      canonical Fr element. */
  method Mul<T(!new)>(F: Fq12Ops<T>, g: Gt<T>, scalar: seq<uint8>) returns (acc: Gt<T>)
    requires Lawful(F)
    requires |scalar| == 32
    ensures acc == Times(F, g, BeValue(ReprBits(scalar)[1..]))
    ensures LeValue(scalar) < SCALAR_RANGE ==> acc == Times(F, g, LeValue(scalar))
  {
    var bits := ReprBits(scalar);
    acc := DoubleAndAdd(F, g, bits[1..]);
    SkippedTopBit(scalar);
  }
}

=== FILE: hex.dfy ===
/** fmt_colon_delimited_hex: a byte string as two lower-case hex digits per
    byte, with a colon between consecutive bytes and none after the last. */
module Hex {
  import opened Bytes

  const HEX_DIGITS: string := "0123456789abcdef"

  function HexDigit(n: nat): (c: char)
    requires n < 16
    ensures c != ':'
  {
    HEX_DIGITS[n]
  }

  /** The value of a lower-case hex digit, or 16 for any other character. */
  function DigitValue(c: char): (v: nat)
    ensures v <= 16
  {
    if '0' <= c <= '9' then c as nat - '0' as nat
    else if 'a' <= c <= 'f' then c as nat - 'a' as nat + 10
    else 16
  }

  lemma DigitValueOfHexDigit(n: nat)
    requires n < 16
    ensures DigitValue(HexDigit(n)) == n
  {
  }

  /** {:02x} of one byte: high nibble first. */
  function ByteHex(b: uint8): (h: string)
    ensures |h| == 2
  {
    [HexDigit(b / 16), HexDigit(b % 16)]
  }

  /** The two digits of ByteHex read back give the byte. */
  lemma ByteHexRoundTrip(b: uint8)
    ensures DigitValue(ByteHex(b)[0]) * 16 + DigitValue(ByteHex(b)[1]) == b
  {
    DigitValueOfHexDigit(b / 16);
    DigitValueOfHexDigit(b % 16);
  }

  /** The reference rendering: the first byte, then a colon and the rest. */
  function ColonHex(bytes: seq<uint8>): (s: string)
  {
    if bytes == [] then []
    else if |bytes| == 1 then ByteHex(bytes[0])
    else ByteHex(bytes[0]) + [':'] + ColonHex(bytes[1..])
  }

  /** The two characters of s that render byte k. */
  function PairAt(s: string, k: nat): string
  {
    if 3 * k + 2 <= |s| then s[3 * k..3 * k + 2] else []
  }

  /** s has a colon right after the rendering of byte k. */
  predicate ColonAfter(s: string, k: nat)
  {
    3 * k + 2 < |s| && s[3 * k + 2] == ':'
  }

  /** The shape of a colon-delimited rendering of bytes, position by position. */
  predicate IsColonHex(bytes: seq<uint8>, s: string)
  {
    && |s| == (if bytes == [] then 0 else 3 * |bytes| - 1)
    && (forall k | 0 <= k < |bytes| :: PairAt(s, k) == ByteHex(bytes[k]))
    && (forall k | 0 <= k < |bytes| - 1 :: ColonAfter(s, k))
  }

  lemma {:induction false} ColonHexShape(bytes: seq<uint8>)
    ensures IsColonHex(bytes, ColonHex(bytes))
  {
    if |bytes| > 1 {
      var rest := ColonHex(bytes[1..]);
      ColonHexShape(bytes[1..]);
      var s := ByteHex(bytes[0]) + [':'] + rest;
      forall k | 0 <= k < |bytes|
        ensures PairAt(s, k) == ByteHex(bytes[k])
      {
        if k > 0 {
          assert PairAt(rest, k - 1) == ByteHex(bytes[1..][k - 1]);
          assert s[3 * k..3 * k + 2] == rest[3 * (k - 1)..3 * (k - 1) + 2];
        }
      }
      forall k | 0 <= k < |bytes| - 1
        ensures ColonAfter(s, k)
      {
        if k > 0 {
          assert ColonAfter(rest, k - 1);
        }
      }
    }
  }

  /** The position-by-position shape fixes the string. */
  lemma ColonHexUnique(bytes: seq<uint8>, s: string, t: string)
    requires IsColonHex(bytes, s) && IsColonHex(bytes, t)
    ensures s == t
  {
    forall i | 0 <= i < |s|
      ensures s[i] == t[i]
    {
      var k := i / 3;
      if i % 3 == 2 {
        assert ColonAfter(s, k) && ColonAfter(t, k);
      } else {
        assert PairAt(s, k) == PairAt(t, k);
        assert s[i] == PairAt(s, k)[i % 3];
      }
    }
  }

  /** A string has the colon-delimited shape exactly when it is ColonHex. */
  lemma IsColonHexIff(bytes: seq<uint8>, s: string)
    ensures IsColonHex(bytes, s) <==> s == ColonHex(bytes)
  {
    ColonHexShape(bytes);
    if IsColonHex(bytes, s) {
      ColonHexUnique(bytes, s, ColonHex(bytes));
    }
  }

  /** Appending the rendering of byte k to a rendering of k bytes keeps the
      earlier pairs and puts the new one at k. */
  lemma PairAtExtend(prev: string, h: string, tail: string, i: nat)
    requires |prev| == 3 * i && |h| == 2
    ensures forall k | 0 <= k < i :: PairAt(prev + h + tail, k) == PairAt(prev, k)
    ensures PairAt(prev + h + tail, i) == h
  {
    var s := prev + h + tail;
    assert s[3 * i..3 * i + 2] == h;
    forall k | 0 <= k < i
      ensures PairAt(s, k) == PairAt(prev, k)
    {
      assert s[3 * k..3 * k + 2] == prev[3 * k..3 * k + 2];
    }
  }

  /** The formatter loop: for each byte its two digits, then a colon unless
      it is the last byte. Formatter write errors are not modelled. */
  method FmtColonDelimitedHex(bytes: seq<uint8>) returns (out: string)
    ensures IsColonHex(bytes, out)
    ensures out == ColonHex(bytes)
  {
    var len := |bytes|;
    out := [];
    var i := 0;
    while i < len
      invariant 0 <= i <= len
      invariant |out| == if i == len && len > 0 then 3 * i - 1 else 3 * i
      invariant forall k | 0 <= k < i :: PairAt(out, k) == ByteHex(bytes[k])
      invariant forall k | 0 <= k < i && k < len - 1 :: ColonAfter(out, k)
    {
      var prev := out;
      out := out + ByteHex(bytes[i]);
      if i != len - 1 {
        out := out + [':'];
      }
      var tail := out[|prev| + 2..];
      assert out == prev + ByteHex(bytes[i]) + tail;
      PairAtExtend(prev, ByteHex(bytes[i]), tail, i);
      forall k | 0 <= k < i && k < len - 1
        ensures ColonAfter(out, k)
      {
        assert ColonAfter(prev, k);
        assert out[3 * k + 2] == prev[3 * k + 2];
      }
      assert i < len - 1 ==> ColonAfter(out, i);
      i := i + 1;
    }
    IsColonHexIff(bytes, out);
  }
}

=== FILE: memo.dfy ===
/** The 512-byte memo field of a Sapling note, with the ZIP 302 conventions:
    a lead byte below 0xF5 marks UTF-8 text padded with zero bytes, and the
    empty memo is 0xF6 followed by zeros. */
module Memos {
  import opened Wrappers
  import opened Bytes
  import opened Utf8
  import opened Hex

  const MEMO_SIZE: nat := 512

  /** The lead byte of the empty memo (ZIP 302). */
  const NO_MEMO: uint8 := 0xF6

  /** Lead bytes from this value on mark a memo that is not text. */
  const FIRST_NON_TEXT: uint8 := 0xF5

  type MemoBytes = s: seq<uint8> | |s| == MEMO_SIZE witness Zeros(MEMO_SIZE)

  datatype Memo = Memo(bytes: MemoBytes)

  /** Memo::default: the "no memo" indication. */
  function Default(): (m: Memo)
    ensures m.bytes[0] == NO_MEMO
    ensures forall i | 1 <= i < MEMO_SIZE :: m.bytes[i] == 0
  {
    Memo([NO_MEMO] + Zeros(MEMO_SIZE - 1))
  }

  /** Memo::from_bytes: the empty slice gives the default memo, a slice of
      at most 512 bytes is copied to the front of a zeroed memo, a longer one
      is rejected. */
  function FromBytes(memo: seq<uint8>): (r: Option<Memo>)
    ensures r.Some? <==> |memo| <= MEMO_SIZE
    ensures memo == [] ==> r == Some(Default())
    ensures r.Some? && memo != [] ==>
              r.value.bytes[..|memo|] == memo &&
              forall i | |memo| <= i < MEMO_SIZE :: r.value.bytes[i] == 0
  {
    if memo == [] then Some(Default())
    else if |memo| <= MEMO_SIZE then Some(Memo(memo + Zeros(MEMO_SIZE - |memo|)))
    else None
  }

  /** as_bytes: the underlying bytes. */
  function AsBytes(m: Memo): (bs: seq<uint8>)
    ensures |bs| == MEMO_SIZE
  {
    m.bytes
  }

  /** A memo read back from its own bytes is the memo itself; only the empty
      slice is replaced by the default, never a full 512-byte one. */
  lemma FromBytesOfAsBytes(m: Memo)
    ensures FromBytes(AsBytes(m)) == Some(m)
  {
    assert m.bytes + Zeros(0) == m.bytes;
  }

  /** PartialEq: two memos are equal exactly when their bytes are. */
  function Eq(a: Memo, b: Memo): (r: bool)
    ensures r <==> a == b
  {
    a.bytes[..] == b.bytes[..]
  }

  /** trim_end_matches(char::from(0)): drop every trailing NUL. */
  function TrimTrailingNul(s: string): (t: string)
    ensures |t| <= |s| && t == s[..|t|]
    ensures forall i | |t| <= i < |s| :: s[i] == 0 as char
    ensures t == [] || t[|t| - 1] != 0 as char
    decreases |s|
  {
    if s != [] && s[|s| - 1] == 0 as char then TrimTrailingNul(s[..|s| - 1]) else s
  }

  /** Appending NULs does not change what trimming leaves. */
  lemma {:induction false} TrimAppendNuls(s: string, n: nat)
    ensures TrimTrailingNul(s + Nuls(n)) == TrimTrailingNul(s)
  {
    if n == 0 {
      assert s + Nuls(0) == s;
    } else {
      var t := s + Nuls(n);
      assert t[|t| - 1] == 0 as char;
      assert t[..|t| - 1] == s + Nuls(n - 1);
      TrimAppendNuls(s, n - 1);
    }
  }

  /** The trimmed string followed by the trimmed NULs is the original. */
  lemma TrimSplit(s: string)
    ensures s == TrimTrailingNul(s) + Nuls(|s| - |TrimTrailingNul(s)|)
  {
    var t := TrimTrailingNul(s);
    assert s == t + s[|t|..];
    assert s[|t|..] == Nuls(|s| - |t|);
  }

  /** to_utf8: None for a memo that is not text, otherwise the validation
      result of the whole 512 bytes with trailing NULs dropped from the text.
      A failure carries valid_up_to: the bytes before it validate and no
      sequence is recognised at it, so it is the first invalid offset. */
  function ToUtf8(m: Memo): (r: Option<Result<string, nat>>)
    ensures r.None? <==> m.bytes[0] >= FIRST_NON_TEXT
    ensures r.Some? ==> (r.value.Success? <==> Decode(m.bytes).Success?)
    ensures r.Some? && r.value.Failure? ==>
              && r.value.error < MEMO_SIZE
              && Decode(m.bytes[..r.value.error]).Success?
              && DecodeFirst(m.bytes[r.value.error..]).None?
  {
    if m.bytes[0] < FIRST_NON_TEXT then
      match Decode(m.bytes)
      case Success(s) => Some(Success(TrimTrailingNul(s)))
      case Failure(k) =>
        DecodeFailureOffset(m.bytes);
        Some(Failure(k))
    else None
  }

  /** The empty memo is not text. */
  lemma DefaultIsNotText()
    ensures ToUtf8(Default()) == None
  {
  }

  /** FromStr: the memo of the string's UTF-8 bytes, or Failure(()) when they
      exceed 512 bytes. */
  function FromStr(s: string): (r: Result<Memo, ()>)
    ensures r.Success? <==> |Encode(s)| <= MEMO_SIZE
  {
    match FromBytes(Encode(s))
    case Some(m) => Success(m)
    case None => Failure(())
  }

  /** The empty string gives the empty memo. */
  lemma FromStrOfEmpty()
    ensures FromStr("") == Success(Default())
  {
  }

  lemma EncodeLeadByte(s: string)
    requires s != []
    ensures Encode(s)[0] == EncodeChar(s[0])[0]
  {
  }

  /** A non-empty string that fits reads back as text, minus any trailing NULs. */
  lemma TextRoundTrip(s: string)
    requires s != [] && |Encode(s)| <= MEMO_SIZE
    ensures FromStr(s).Success?
    ensures ToUtf8(FromStr(s).value) == Some(Success(TrimTrailingNul(s)))
  {
    var e := Encode(s);
    var n := MEMO_SIZE - |e|;
    var m := FromStr(s).value;
    assert m.bytes == e + Zeros(n);
    EncodeLeadByte(s);
    assert m.bytes[0] < FIRST_NON_TEXT;
    DecodeOfZeros(n);
    DecodeOfEncode(s, Zeros(n));
    TrimAppendNuls(s, n);
  }

  /** Conversely, a text memo with non-empty text is what FromStr makes of
      that text. */
  lemma TextMemoFromStr(m: Memo, t: string)
    requires ToUtf8(m) == Some(Success(t)) && t != []
    ensures FromStr(t) == Success(m)
  {
    var s := Decode(m.bytes).value;
    EncodeOfDecode(m.bytes);
    var k := |s| - |t|;
    TrimSplit(s);
    EncodeAppend(t, Nuls(k));
    EncodeOfNuls(k);
    assert m.bytes == Encode(t) + Zeros(k);
    assert Encode(t) + Zeros(MEMO_SIZE - |Encode(t)|) == m.bytes;
  }

  /** The memo_to_utf8 vector. */
  lemma TestMemoVector()
    ensures ToUtf8(FromStr("Test memo").value) == Some(Success("Test memo"))
  {
    assert |Encode("Test memo")| == 9;
    TextRoundTrip("Test memo");
  }

  /** Debug: Memo("text") for a text memo that validates, otherwise the
      colon-delimited hex of all 512 bytes. */
  function DebugString(m: Memo): (d: string)
    ensures |d| >= 6 && d[..5] == "Memo(" && d[|d| - 1] == ')'
  {
    var body :=
      match ToUtf8(m)
      case Some(Success(t)) => ['"'] + t + ['"']
      case _ => ColonHex(m.bytes);
    "Memo(" + body + ")"
  }

  /** A memo that is not valid text shows all its bytes: 1535 characters of
      colon-delimited hex between the parentheses. */
  lemma DebugOfBinary(m: Memo)
    requires !(ToUtf8(m).Some? && ToUtf8(m).value.Success?)
    ensures |DebugString(m)| == 6 + 3 * MEMO_SIZE - 1
    ensures IsColonHex(m.bytes, DebugString(m)[5..|DebugString(m)| - 1])
  {
    var d := DebugString(m);
    ColonHexShape(m.bytes);
    assert d[5..|d| - 1] == ColonHex(m.bytes);
  }

  /** A text memo shows its trimmed text in quotes. */
  lemma DebugOfText(m: Memo, t: string)
    requires ToUtf8(m) == Some(Success(t))
    ensures DebugString(m) == "Memo(\"" + t + "\")"
  {
  }
}

=== FILE: miller.dfy ===
/** multi_miller_loop: the schedule and filtering of the BLS12-381 Miller
    loop over a batch of (G1 point, prepared G2 point) terms. The line
    evaluation ell multiplies the accumulator by a sparse Fq12 element built
    from one coefficient triple and the G1 point; that element is kept
    uninterpreted, so the model pins down which triple meets which point at
    which step and how often each product is squared afterwards. */
module MillerLoop {
  import opened Wrappers
  import opened Bits
  import opened Fq12Algebra
  import opened LoopSchedule
  import opened G2Preparation

  /** The G1 side: the identity test and the sparse line element that
      mul_by_014 multiplies in for a coefficient triple and a point. */
  datatype MillerOps<!T, !G1, !C> = MillerOps(F: Fq12Ops<T>, isIdentity: G1 -> bool, line: (C, G1) -> T)

  /** A surviving term: the G1 point and the triples of its prepared G2 point. */
  datatype Pair<G1, C> = Pair(p: G1, coeffs: seq<C>)

  /** The terms that take part, in order: those where neither P nor Q is the identity. */
  function Surviving<T, G1, C>(M: MillerOps<T, G1, C>, terms: seq<(G1, G2Prepared<C>)>): (pairs: seq<Pair<G1, C>>)
    ensures |pairs| <= |terms|
    ensures forall pr | pr in pairs :: !M.isIdentity(pr.p) && (pr.p, G2Prepared(pr.coeffs, false)) in terms
    ensures forall t | t in terms && !M.isIdentity(t.0) && !IsIdentity(t.1) :: Pair(t.0, t.1.coeffs) in pairs
    ensures |terms| == 1 && !M.isIdentity(terms[0].0) && !IsIdentity(terms[0].1) ==> pairs == [Pair(terms[0].0, terms[0].1.coeffs)]
    ensures |terms| == 1 && (M.isIdentity(terms[0].0) || IsIdentity(terms[0].1)) ==> pairs == []
  {
    if terms == [] then []
    else
      var t := terms[|terms| - 1];
      var kept := if !M.isIdentity(t.0) && !IsIdentity(t.1) then [Pair(t.0, t.1.coeffs)] else [];
      assert forall u | u in terms :: u in terms[..|terms| - 1] || u == t;
      Surviving(M, terms[..|terms| - 1]) + kept
  }

  /** The loop that pushes the surviving terms computes the filter. */
  method CollectPairs<T, G1, C>(M: MillerOps<T, G1, C>, terms: seq<(G1, G2Prepared<C>)>) returns (pairs: seq<Pair<G1, C>>)
    ensures pairs == Surviving(M, terms)
  {
    pairs := [];
    var i := 0;
    while i < |terms|
      invariant 0 <= i <= |terms|
      invariant pairs == Surviving(M, terms[..i])
    {
      var t := terms[i];
      if !M.isIdentity(t.0) && !IsIdentity(t.1) {
        pairs := pairs + [Pair(t.0, t.1.coeffs)];
      }
      assert terms[..i + 1][..i] == terms[..i];
      i := i + 1;
    }
    assert terms[..i] == terms;
  }

  /** The filter distributes over concatenation, so it keeps order and
      multiplicity: together with the one-term case in the contract of
      Surviving it fixes the result term by term. */
  lemma {:induction false} SurvivingAppend<T, G1, C>(M: MillerOps<T, G1, C>, a: seq<(G1, G2Prepared<C>)>,
                                                     b: seq<(G1, G2Prepared<C>)>)
    ensures Surviving(M, a + b) == Surviving(M, a) + Surviving(M, b)
  {
    if b == [] {
      assert a + b == a;
    } else {
      var b' := b[..|b| - 1];
      assert (a + b)[..|a + b| - 1] == a + b';
      SurvivingAppend(M, a, b');
    }
  }

  /** Every pair still holds a triple at each of the slots 0 .. n-1. */
  predicate Enough<G1, C>(pairs: seq<Pair<G1, C>>, n: nat)
  {
    forall j | 0 <= j < |pairs| :: n <= |pairs[j].coeffs|
  }

  /** The product of the line elements of all pairs at slot k, in pair order. */
  function LineProduct<T, G1, C>(M: MillerOps<T, G1, C>, pairs: seq<Pair<G1, C>>, k: nat): T
    requires Enough(pairs, k + 1)
  {
    if pairs == [] then M.F.one
    else
      var last := pairs[|pairs| - 1];
      M.F.mul(LineProduct(M, pairs[..|pairs| - 1], k), M.line(last.coeffs[k], last.p))
  }

  /** How many doubling steps follow slot s: each of them squares the
      accumulator, so the line product of slot s ends up raised to 2^Weight. */
  function Weight(steps: seq<Step>, s: nat): nat
    requires s < |steps|
  {
    CountDoubling(steps[s + 1..])
  }

  /** The closed form of the loop after the first n slots of the schedule
      steps: the line product of slot s is squared once for every doubling
      step that comes after it. */
  function Weighted<T, G1, C>(M: MillerOps<T, G1, C>, pairs: seq<Pair<G1, C>>, steps: seq<Step>, n: nat): T
    requires n <= |steps| && Enough(pairs, n)
  {
    if n == 0 then M.F.one
    else
      M.F.mul(Weighted(M, pairs, steps, n - 1),
              Pow(M.F, LineProduct(M, pairs, n - 1), Pow2(Weight(steps, n - 1))))
  }

  /** The value multi_miller_loop returns for the surviving pairs. */
  function MillerValue<T, G1, C>(M: MillerOps<T, G1, C>, pairs: seq<Pair<G1, C>>): T
    requires Enough(pairs, 68)
  {
    ScheduleLength();
    var w := Weighted(M, pairs, Schedule(TailBits()), 68);
    if BLS_X_IS_NEGATIVE then M.F.conjugate(w) else w
  }

  lemma LineProductSnoc<T, G1, C>(M: MillerOps<T, G1, C>, pairs: seq<Pair<G1, C>>, pr: Pair<G1, C>, k: nat)
    requires Enough(pairs + [pr], k + 1)
    requires k < |pr.coeffs|
    ensures Enough(pairs, k + 1)
    ensures LineProduct(M, pairs + [pr], k) == M.F.mul(LineProduct(M, pairs, k), M.line(pr.coeffs[k], pr.p))
  {
    assert (pairs + [pr])[..|pairs|] == pairs;
    assert forall j | 0 <= j < |pairs| :: pairs[j] == (pairs + [pr])[j];
  }

  /** One pass of ell over the pairs at slot k, as the inner for loops do:
      it fails (the unwrap panics) exactly when some pair has run out of
      triples, and otherwise multiplies f by the slot's line product. */
  method LinePass<T(!new), G1, C>(M: MillerOps<T, G1, C>, f: T, pairs: seq<Pair<G1, C>>, k: nat) returns (r: Option<T>)
    requires Lawful(M.F)
    ensures r.Some? <==> Enough(pairs, k + 1)
    ensures r.Some? ==> r.value == M.F.mul(f, LineProduct(M, pairs, k))
  {
    var g := f;
    var j := 0;
    while j < |pairs|
      invariant 0 <= j <= |pairs|
      invariant Enough(pairs[..j], k + 1)
      invariant g == M.F.mul(f, LineProduct(M, pairs[..j], k))
    {
      if |pairs[j].coeffs| <= k {
        return None;
      }
      assert pairs[..j + 1] == pairs[..j] + [pairs[j]];
      LineProductSnoc(M, pairs[..j], pairs[j], k);
      MulAssoc(M.F, f, LineProduct(M, pairs[..j], k), M.line(pairs[j].coeffs[k], pairs[j].p));
      g := M.F.mul(g, M.line(pairs[j].coeffs[k], pairs[j].p));
      j := j + 1;
    }
    assert pairs[..j] == pairs;
    return Some(g);
  }

  /** Raising every weight by one doubling squares the partial product. */
  lemma {:induction false} WeightedShift<T(!new), G1, C>(M: MillerOps<T, G1, C>, pairs: seq<Pair<G1, C>>, s1: seq<Step>, s2: seq<Step>, n: nat)
    requires Lawful(M.F)
    requires n <= |s1| && n <= |s2| && Enough(pairs, n)
    requires forall s | 0 <= s < n :: Weight(s2, s) == Weight(s1, s) + 1
    ensures Weighted(M, pairs, s2, n) == M.F.square(Weighted(M, pairs, s1, n))
  {
    if n > 0 {
      WeightedShift(M, pairs, s1, s2, n - 1);
      var x := LineProduct(M, pairs, n - 1);
      var c := Weight(s1, n - 1);
      assert Weight(s2, n - 1) == c + 1;
      assert Pow2(c + 1) == 2 * Pow2(c);
      PowDouble(M.F, x, Pow2(c));
      SquareOfMul(M.F, Weighted(M, pairs, s1, n - 1), Pow(M.F, x, Pow2(c)));
    }
  }

  lemma PowTwo<T(!new)>(F: Fq12Ops<T>, x: T)
    requires Lawful(F)
    ensures Pow(F, x, Pow2(1)) == F.square(x)
    ensures Pow(F, x, Pow2(0)) == x
  {
    PowOfOneExponent(F, x);
    PowDouble(F, x, 1);
  }

  lemma CountDoublingTail(b: seq<Step>, s: nat, rest: seq<Step>)
    requires s + 1 <= |b|
    ensures (b + rest)[s + 1..] == b[s + 1..] + rest
    ensures CountDoubling((b + rest)[s + 1..]) == CountDoubling(b[s + 1..]) + CountDoubling(rest)
  {
    assert (b + rest)[s + 1..] == b[s + 1..] + rest;
    CountDoublingAppend(b[s + 1..], rest);
  }

  /** Extending the bits by one: the schedule grows by a doubling (and an
      addition for a set bit) before its final doubling, every earlier slot
      gains one squaring, and the new slots are squared once. */
  lemma SnocWeights(prefix: seq<bool>, b: bool)
    ensures |Body(prefix + [b])| == |Body(prefix)| + (if b then 2 else 1)
    ensures var k := |Body(prefix)|;
            var s1 := Schedule(prefix);
            var s2 := Schedule(prefix + [b]);
            && |s1| == k + 1 && |s2| == |Body(prefix + [b])| + 1
            && (forall s | 0 <= s < k :: Weight(s2, s) == Weight(s1, s) + 1)
            && Weight(s2, k) == 1
            && (b ==> Weight(s2, k + 1) == 1)
  {
    var B := Body(prefix);
    var k := |B|;
    var E: seq<Step> := if b then [Addition] else [];
    BodySnoc(prefix, b);
    var s1 := Schedule(prefix);
    var s2 := Schedule(prefix + [b]);
    assert s1 == B + [Doubling];
    assert s2 == B + ([Doubling] + E + [Doubling]);
    assert CountDoubling([Doubling]) == 1;
    assert CountDoubling([Doubling] + E + [Doubling]) == 2 by {
      CountDoublingAppend([Doubling] + E, [Doubling]);
      CountDoublingAppend([Doubling], E);
      assert CountDoubling(E) == 0;
    }
    forall s | 0 <= s < k
      ensures Weight(s2, s) == Weight(s1, s) + 1
    {
      CountDoublingTail(B, s, [Doubling]);
      CountDoublingTail(B, s, [Doubling] + E + [Doubling]);
    }
    assert s2[k + 1..] == E + [Doubling];
    CountDoublingAppend(E, [Doubling]);
    assert CountDoubling(E) == 0;
    if b {
      assert s2[k + 2..] == [Doubling];
    }
  }

  /** One iteration of the bit loop: the doubling pass, the addition pass
      for a set bit, then the squaring, turn the closed form for a prefix of
      the bits into the closed form for the prefix extended by one bit. */
  lemma MillerBitStep<T(!new), G1, C>(M: MillerOps<T, G1, C>, pairs: seq<Pair<G1, C>>, prefix: seq<bool>, b: bool)
    requires Lawful(M.F)
    requires Enough(pairs, |Body(prefix + [b])|)
    ensures |Body(prefix + [b])| == |Body(prefix)| + (if b then 2 else 1)
    ensures var k := |Body(prefix)|;
            var f1 := M.F.mul(Weighted(M, pairs, Schedule(prefix), k), LineProduct(M, pairs, k));
            var f2 := if b then M.F.mul(f1, LineProduct(M, pairs, k + 1)) else f1;
            M.F.square(f2) == Weighted(M, pairs, Schedule(prefix + [b]), |Body(prefix + [b])|)
  {
    var k := |Body(prefix)|;
    var s1 := Schedule(prefix);
    var s2 := Schedule(prefix + [b]);
    SnocWeights(prefix, b);
    WeightedShift(M, pairs, s1, s2, k);
    var w := Weighted(M, pairs, s1, k);
    var x0 := LineProduct(M, pairs, k);
    PowTwo(M.F, x0);
    assert Weighted(M, pairs, s2, k + 1) == M.F.mul(M.F.square(w), M.F.square(x0));
    SquareOfMul(M.F, w, x0);
    if b {
      var x1 := LineProduct(M, pairs, k + 1);
      PowTwo(M.F, x1);
      assert Weighted(M, pairs, s2, k + 2) == M.F.mul(M.F.square(M.F.mul(w, x0)), M.F.square(x1));
      SquareOfMul(M.F, M.F.mul(w, x0), x1);
    }
  }

  /** The pass after the loop, for the final doubling triple, completes the closed form. */
  lemma MillerLastStep<T(!new), G1, C>(M: MillerOps<T, G1, C>, pairs: seq<Pair<G1, C>>, bits: seq<bool>)
    requires Lawful(M.F)
    requires Enough(pairs, |Body(bits)| + 1)
    ensures |Schedule(bits)| == |Body(bits)| + 1
    ensures M.F.mul(Weighted(M, pairs, Schedule(bits), |Body(bits)|), LineProduct(M, pairs, |Body(bits)|))
            == Weighted(M, pairs, Schedule(bits), |Schedule(bits)|)
  {
    var k := |Body(bits)|;
    var steps := Schedule(bits);
    var x := LineProduct(M, pairs, k);
    assert steps[k + 1..] == [];
    assert Weight(steps, k) == 0;
    PowTwo(M.F, x);
    assert Weighted(M, pairs, steps, k + 1) == M.F.mul(Weighted(M, pairs, steps, k), Pow(M.F, x, Pow2(0)));
  }

  lemma EnoughMonotone<G1, C>(pairs: seq<Pair<G1, C>>, m: nat, n: nat)
    requires m <= n
    ensures Enough(pairs, n) ==> Enough(pairs, m)
  {
  }

  /** The body of one bit of the loop, once the leading one has been seen:
      a pass for the doubling triple, a pass for the addition triple when the
      bit is set, then the squaring of f. */
  method MillerIteration<T(!new), G1, C>(M: MillerOps<T, G1, C>, pairs: seq<Pair<G1, C>>, f: T, used: nat, ghost prefix: seq<bool>, b: bool)
    returns (r: Option<T>)
    requires Lawful(M.F)
    requires used == |Body(prefix)| && Enough(pairs, used)
    requires f == Weighted(M, pairs, Schedule(prefix), used)
    ensures |Body(prefix + [b])| == used + if b then 2 else 1
    ensures r.Some? <==> Enough(pairs, |Body(prefix + [b])|)
    ensures r.Some? ==> r.value == Weighted(M, pairs, Schedule(prefix + [b]), |Body(prefix + [b])|)
  {
    BodySnoc(prefix, b);
    var pass := LinePass(M, f, pairs, used);
    if pass.None? {
      return None;
    }
    var f1 := pass.value;
    var f2 := f1;
    if b {
      pass := LinePass(M, f1, pairs, used + 1);
      if pass.None? {
        return None;
      }
      f2 := pass.value;
    }
    MillerBitStep(M, pairs, prefix, b);
    return Some(M.F.square(f2));
  }

  /** The bit loop of multi_miller_loop over any bit string: the bits up to
      and including the first set bit are skipped; afterwards each bit runs a
      doubling pass, an addition pass when set, and a squaring. */
  method MillerBits<T(!new), G1, C>(M: MillerOps<T, G1, C>, pairs: seq<Pair<G1, C>>, bits: seq<bool>) returns (r: Option<T>, used: nat)
    requires Lawful(M.F)
    ensures r.Some? ==> used == |Body(AfterLeadingOne(bits))|
    ensures r.Some? <==> Enough(pairs, |Body(AfterLeadingOne(bits))|)
    ensures r.Some? ==> r.value == Weighted(M, pairs, Schedule(AfterLeadingOne(bits)), |Body(AfterLeadingOne(bits))|)
  {
    var f := M.F.one;
    used := 0;
    var foundOne := false;
    ghost var tail := AfterLeadingOne(bits);
    ghost var done: seq<bool> := [];
    var i := 0;
    while i < |bits|
      invariant 0 <= i <= |bits|
      invariant !foundOne ==> AfterLeadingOne(bits[i..]) == tail && done == []
      invariant foundOne ==> tail == done + bits[i..]
      invariant used == |Body(done)| && Enough(pairs, used)
      invariant f == Weighted(M, pairs, Schedule(done), used)
    {
      if !foundOne {
        AfterLeadingOneAt(bits, i);
        assert done + bits[i + 1..] == bits[i + 1..];
        foundOne := bits[i];
      } else {
        ghost var done' := done + [bits[i]];
        ShiftBit(done, bits, i);
        BodyAppend(done', bits[i + 1..]);
        var next := MillerIteration(M, pairs, f, used, done, bits[i]);
        if next.None? {
          EnoughMonotone(pairs, |Body(done')|, |Body(tail)|);
          return None, used;
        }
        f := next.value;
        used := used + if bits[i] then 2 else 1;
        done := done';
      }
      i := i + 1;
    }
    assert bits[i..] == [];
    assert done + [] == done;
    return Some(f), used;
  }

  lemma WeightedOfNoPairs<T(!new), G1, C>(M: MillerOps<T, G1, C>, steps: seq<Step>, n: nat)
    requires Lawful(M.F) && n <= |steps|
    ensures Weighted(M, [], steps, n) == M.F.one
  {
    if n > 0 {
      WeightedOfNoPairs(M, steps, n - 1);
      PowOfOne(M.F, Pow2(Weight(steps, n - 1)));
    }
  }

  /** With no surviving pairs the loop only squares and conjugates one. */
  lemma MillerValueOfNoPairs<T(!new), G1, C>(M: MillerOps<T, G1, C>)
    requires Lawful(M.F)
    ensures MillerValue(M, []) == M.F.one
  {
    ScheduleLength();
    WeightedOfNoPairs(M, Schedule(TailBits()), 68);
  }

  /** Terms whose P or Q is the identity are all dropped. */
  lemma NoSurvivors<T, G1, C>(M: MillerOps<T, G1, C>, terms: seq<(G1, G2Prepared<C>)>)
    requires forall t | t in terms :: M.isIdentity(t.0) || IsIdentity(t.1)
    ensures Surviving(M, terms) == []
  {
  }

  /** Prepared points carrying the full schedule of triples never make the
      loop run out: each surviving pair holds a triple for all 68 slots. */
  lemma PreparedTermsSuffice<T, G1, C>(M: MillerOps<T, G1, C>, terms: seq<(G1, G2Prepared<C>)>)
    requires forall t | t in terms && !IsIdentity(t.1) :: |t.1.coeffs| == 68
    ensures Enough(Surviving(M, terms), 68)
  {
    var pairs := Surviving(M, terms);
    forall j | 0 <= j < |pairs|
      ensures 68 <= |pairs[j].coeffs|
    {
      assert pairs[j] in pairs;
    }
  }

  /** The batched Miller loop. It fails (a coeffs.next().unwrap() panics)
      exactly when a surviving term's prepared point holds fewer than the 68
      triples from_affine produces; otherwise it returns the closed form. */
  method MultiMillerLoop<T(!new), G1, C>(M: MillerOps<T, G1, C>, terms: seq<(G1, G2Prepared<C>)>) returns (r: Option<T>)
    requires Lawful(M.F)
    ensures r.Some? <==> Enough(Surviving(M, terms), 68)
    ensures r.Some? ==> r.value == MillerValue(M, Surviving(M, terms))
    ensures (forall t | t in terms :: M.isIdentity(t.0) || IsIdentity(t.1)) ==> r == Some(M.F.one)
  {
    var pairs := CollectPairs(M, terms);
    ghost var allIdentity := forall t | t in terms :: M.isIdentity(t.0) || IsIdentity(t.1);
    if allIdentity {
      NoSurvivors(M, terms);
      MillerValueOfNoPairs(M);
    }
    ScheduleLength();
    var body, k := MillerBits(M, pairs, LoopBits());
    if body.None? {
      return None;
    }
    var last := LinePass(M, body.value, pairs, k);
    if last.None? {
      return None;
    }
    MillerLastStep(M, pairs, TailBits());
    var f := last.value;
    if BLS_X_IS_NEGATIVE {
      f := M.F.conjugate(f);
    }
    return Some(f);
  }
}

=== FILE: pairing.dfy ===
/** final_exponentiation and pairing for BLS12-381. The exponentiation
    chain is transcribed step for step over the abstract Fq12 operations;
    what is proved is where it can fail and what it does to one. */
module Pairing {
  import opened Wrappers
  import opened Fq12Algebra
  import opened TargetGroup
  import opened LoopSchedule
  import opened G2Preparation
  import opened MillerLoop

  /** Shifts of a u64 drop the bits that leave the word. */
  const U64_MODULUS: nat := 0x1_0000_0000_0000_0000

  /** exp_by_x: f^x, conjugated because x is negative for BLS12-381. On the
      cyclotomic subgroup, where the conjugate is the inverse, this is the
      power of the inverse; it maps one to one. */
  function ExpByX<T(!new)>(F: Fq12Ops<T>, f: T, x: nat): (r: T)
    ensures Lawful(F) && BLS_X_IS_NEGATIVE ==> r == Pow(F, F.conjugate(f), x)
    ensures Lawful(F) && f == F.one ==> r == F.one
  {
    var y := Pow(F, f, x);
    assert Lawful(F) ==> F.conjugate(y) == Pow(F, F.conjugate(f), x) && Pow(F, F.one, x) == F.one by {
      if Lawful(F) {
        ConjugatePow(F, f, x);
        PowOfOne(F, x);
      }
    }
    if BLS_X_IS_NEGATIVE then F.conjugate(y) else y
  }

  /** The final exponentiation. It is None exactly when the input has no
      inverse, where the unwrap of the inversion panics. */
  function FinalExponentiation<T(!new)>(F: Fq12Ops<T>, f: T): (r: Option<Gt<T>>)
    ensures r.Some? <==> F.invert(f).Some?
  {
    var f1 := F.conjugate(f);
    match F.invert(f)
    case None => None
    case Some(inv) =>
      var r0 := F.mul(f1, inv);
      var f2 := r0;
      var r := F.mul(F.frobenius(r0, 2), f2);
      var x0 := BLS_X;
      var y0 := F.square(r);
      var y1a := ExpByX(F, y0, x0);
      var x1 := x0 / 2;
      var y2a := ExpByX(F, y1a, x1);
      var x := (x1 * 2) % U64_MODULUS;
      var y3a := F.conjugate(r);
      var y1b := F.mul(y1a, y3a);
      var y1c := F.conjugate(y1b);
      var y1d := F.mul(y1c, y2a);
      var y2b := ExpByX(F, y1d, x);
      var y3b := ExpByX(F, y2b, x);
      var y1e := F.conjugate(y1d);
      var y3c := F.mul(y3b, y1e);
      var y1f := F.conjugate(y1e);
      var y1g := F.frobenius(y1f, 3);
      var y2c := F.frobenius(y2b, 2);
      var y1h := F.mul(y1g, y2c);
      var y2d := ExpByX(F, y3c, x);
      var y2e := F.mul(y2d, y0);
      var y2f := F.mul(y2e, r);
      var y1i := F.mul(y1h, y2f);
      var y2g := F.frobenius(y3c, 1);
      var y1j := F.mul(y1i, y2g);
      Some(Gt(y1j))
  }

  /** Shifting BLS_X right and back left restores it: its low bit is clear. */
  lemma ShiftBackRestores()
    ensures (BLS_X / 2 * 2) % U64_MODULUS == BLS_X
  {
  }

  /** exp_by_x is multiplicative. */
  lemma ExpByXMul<T(!new)>(F: Fq12Ops<T>, a: T, b: T, x: nat)
    requires Lawful(F)
    ensures ExpByX(F, F.mul(a, b), x) == F.mul(ExpByX(F, a, x), ExpByX(F, b, x))
  {
    PowOfMul(F, a, b, x);
    ConjugateMul(F, Pow(F, a, x), Pow(F, b, x));
  }

  /** The final exponentiation of one succeeds and yields the identity of Gt. */
  lemma FinalExponentiationOfOne<T(!new)>(F: Fq12Ops<T>)
    requires Lawful(F)
    ensures FinalExponentiation(F, F.one) == Some(Identity(F))
  {
    InvertSpec(F, F.one, F.one);
    assert F.invert(F.one) == Some(F.one);
  }

  /** pairing(p, q): the Miller loop over the single term (p, prepared q),
      followed by the final exponentiation. None stands for a panic. */
  method Pairing<T(!new), G1, A, P, C>(M: MillerOps<T, G1, C>, L: LineSteps<A, P, C>, p: G1, q: A)
    returns (r: Option<Gt<T>>)
    requires Lawful(M.F)
    ensures M.isIdentity(p) || L.isIdentity(q) ==> r == Some(Identity(M.F))
    ensures !M.isIdentity(p) && !L.isIdentity(q) ==>
              r == FinalExponentiation(M.F, MillerValue(M, [Pair(p, PreparedCoeffs(L, q))]))
  {
    var prepared := FromAffine(L, q);
    var terms := [(p, prepared)];
    var f := MultiMillerLoop(M, terms);
    if !M.isIdentity(p) && !G2Preparation.IsIdentity(prepared) {
      assert Surviving(M, terms) == [Pair(p, prepared.coeffs)];
    } else {
      FinalExponentiationOfOne(M.F);
    }
    return FinalExponentiation(M.F, f.value);
  }
}

=== FILE: plaintext.dfy ===
/** The Sapling note plaintext (section 5.5 of the Zcash Protocol
    Specification) and the trial decryption and recovery routines that read
    it back (sections 4.17.2 and 4.17.3 of the same specification, and
    ZIP 307 for compact decryption).

    The cryptography around the byte layout is abstract: the AEAD, its
    keystream, point serialisation, key agreement and key derivation, and the
    commitment and ephemeral-key checks are parameters whose only known
    properties are the laws stated below. */
module NotePlaintext {
  import opened Wrappers
  import opened Bytes
  import opened Bits
  import opened Memos
  import opened Zip212

  const DIVERSIFIER_SIZE: nat := 11
  const RSEED_SIZE: nat := 32
  const AEAD_TAG_SIZE: nat := 16

  const COMPACT_NOTE_SIZE: nat := 1 + DIVERSIFIER_SIZE + 8 + RSEED_SIZE
  const NOTE_PLAINTEXT_SIZE: nat := COMPACT_NOTE_SIZE + MEMO_SIZE
  const OUT_PLAINTEXT_SIZE: nat := 32 + 32
  const ENC_CIPHERTEXT_SIZE: nat := NOTE_PLAINTEXT_SIZE + AEAD_TAG_SIZE
  const OUT_CIPHERTEXT_SIZE: nat := OUT_PLAINTEXT_SIZE + AEAD_TAG_SIZE

  lemma SizeConstants()
    ensures COMPACT_NOTE_SIZE == 52 && NOTE_PLAINTEXT_SIZE == 564 && ENC_CIPHERTEXT_SIZE == 580
    ensures OUT_PLAINTEXT_SIZE == 64 && OUT_CIPHERTEXT_SIZE == 80
  {
  }

  // ---------------------------------------------------------------------
  // Jubjub scalars

  /** The order of the prime-order subgroup of Jubjub, r_J. */
  const JUBJUB_R: nat := 0x0e7db4ea6533afa906673b0101343b00a6682093ccc81082d0970e5ed6f72cb7

  /** An element of Fs, the scalar field of Jubjub, by its canonical value. */
  type FsValue = v: nat | v < JUBJUB_R

  datatype Fs = Fs(value: FsValue)

  lemma JubjubOrderFits()
    ensures JUBJUB_R < Pow256(32)
  {
    Pow256Of8();
    Pow256Add(8, 8);
    Pow256Add(16, 16);
  }

  /** to_repr: 32 little-endian bytes. */
  function FsToRepr(f: Fs): (r: seq<uint8>)
    ensures |r| == 32
  {
    LeBytes(f.value, 32)
  }

  /** from_repr: the element the 32 bytes denote, or None when they are not
      the canonical encoding of an element (their value is r_J or more). */
  function FsFromRepr(r: seq<uint8>): (f: Option<Fs>)
    requires |r| == 32
    ensures f.Some? <==> LeValue(r) < JUBJUB_R
    ensures f.Some? ==> f.value.value == LeValue(r)
  {
    var v := LeValue(r);
    if v < JUBJUB_R then Some(Fs(v)) else None
  }

  lemma FsReprRoundTrip(f: Fs)
    ensures FsFromRepr(FsToRepr(f)) == Some(f)
  {
    JubjubOrderFits();
    LeValueOfLeBytes(f.value, 32);
  }

  lemma FsReprOfFromRepr(r: seq<uint8>)
    requires |r| == 32 && FsFromRepr(r).Some?
    ensures FsToRepr(FsFromRepr(r).value) == r
  {
    LeBytesOfLeValue(r);
  }

  // ---------------------------------------------------------------------
  // The note plaintext

  /** The note's commitment randomness: rcm itself before ZIP 212, a 32-byte
      seed it is derived from afterwards. */
  datatype Rseed = BeforeZip212(rcm: Fs) | AfterZip212(seed: seq<uint8>)

  /** The fields of the first 52 bytes: diversifier, value and rseed. */
  datatype CompactNote = CompactNote(diversifier: seq<uint8>, value: uint64, rseed: Rseed)

  predicate ValidNote(n: CompactNote)
  {
    |n.diversifier| == DIVERSIFIER_SIZE && (n.rseed.AfterZip212? ==> |n.rseed.seed| == RSEED_SIZE)
  }

  /** The plaintext version a note is encrypted with. */
  function Version(r: Rseed): (v: uint8)
    ensures v == 0x01 || v == 0x02
  {
    match r
    case BeforeZip212(_) => 0x01
    case AfterZip212(_) => 0x02
  }

  function RseedBytes(r: Rseed): (bs: seq<uint8>)
    requires r.AfterZip212? ==> |r.seed| == RSEED_SIZE
    ensures |bs| == RSEED_SIZE
  {
    match r
    case BeforeZip212(rcm) => FsToRepr(rcm)
    case AfterZip212(seed) => seed
  }

  /** The compact part of encrypt_note_plaintext's input: version byte,
      diversifier, little-endian value, rseed. */
  function EncodeCompact(n: CompactNote): (bs: seq<uint8>)
    requires ValidNote(n)
    ensures |bs| == COMPACT_NOTE_SIZE
  {
    [Version(n.rseed)] + n.diversifier + LeBytes(n.value, 8) + RseedBytes(n.rseed)
  }

  /** The full note plaintext: the compact part followed by the memo. */
  function EncodeNotePlaintext(n: CompactNote, memo: Memo): (bs: seq<uint8>)
    requires ValidNote(n)
    ensures |bs| == NOTE_PLAINTEXT_SIZE
    ensures bs[..COMPACT_NOTE_SIZE] == EncodeCompact(n) && bs[COMPACT_NOTE_SIZE..] == memo.bytes
  {
    EncodeCompact(n) + memo.bytes
  }

  /** read_u64::<LittleEndian> of exactly eight bytes, which cannot fail. */
  function ReadU64(bs: seq<uint8>): (v: uint64)
    requires |bs| == 8
    ensures LeBytes(v, 8) == bs
  {
    LeValueBound(bs);
    Pow256Of8();
    LeBytesOfLeValue(bs);
    LeValue(bs)
  }

  /** The field parsing shared by parse_note_plaintext_without_memo and
      try_sapling_output_recovery_with_ock: the version check, then the
      diversifier, value and rseed; a version-1 rseed must be a canonical
      scalar. */
  function ReadCompactFields(params: Parameters, height: uint32, pt: seq<uint8>): (r: Option<CompactNote>)
    requires |pt| >= COMPACT_NOTE_SIZE
    ensures !PlaintextVersionIsValid(params, height, pt[0]) ==> r.None?
    ensures r.Some? ==> ValidNote(r.value)
  {
    if !PlaintextVersionIsValid(params, height, pt[0]) then None
    else
      var d := pt[1..12];
      var v := ReadU64(pt[12..20]);
      var rs := pt[20..COMPACT_NOTE_SIZE];
      if pt[0] == 0x01 then
        match FsFromRepr(rs)
        case None => None
        case Some(rcm) => Some(CompactNote(d, v, BeforeZip212(rcm)))
      else
        Some(CompactNote(d, v, AfterZip212(rs)))
  }

  /** Reading the fields back from an encoding gives the note, provided its
      version is acceptable at this height. */
  lemma ReadOfEncode(params: Parameters, height: uint32, n: CompactNote, rest: seq<uint8>)
    requires ValidNote(n) && PlaintextVersionIsValid(params, height, Version(n.rseed))
    ensures ReadCompactFields(params, height, EncodeCompact(n) + rest) == Some(n)
  {
    var pt := EncodeCompact(n) + rest;
    assert pt[1..12] == n.diversifier;
    assert pt[12..20] == LeBytes(n.value, 8);
    U64RoundTrip(n.value);
    assert pt[20..COMPACT_NOTE_SIZE] == RseedBytes(n.rseed);
    if n.rseed.BeforeZip212? {
      FsReprRoundTrip(n.rseed.rcm);
    }
  }

  /** Whatever the fields are read from, it starts with their encoding. */
  lemma EncodeOfRead(params: Parameters, height: uint32, pt: seq<uint8>)
    requires |pt| >= COMPACT_NOTE_SIZE && ReadCompactFields(params, height, pt).Some?
    ensures EncodeCompact(ReadCompactFields(params, height, pt).value) == pt[..COMPACT_NOTE_SIZE]
  {
    var n := ReadCompactFields(params, height, pt).value;
    OnlyKnownVersions(params, height, pt[0]);
    if pt[0] == 0x01 {
      FsReprOfFromRepr(pt[20..COMPACT_NOTE_SIZE]);
    }
    assert pt[..COMPACT_NOTE_SIZE] == [pt[0]] + pt[1..12] + pt[12..20] + pt[20..COMPACT_NOTE_SIZE];
  }

  /** parse_note_plaintext_without_memo. recipientChecks stands for what the
      source derives from the fields with Jubjub arithmetic: g_d exists, the
      payment address can be built, the note commitment equals cmu and, when
      the note derives its esk, esk reproduces epk. */
  function ParseNotePlaintextWithoutMemo(params: Parameters, height: uint32,
                                         recipientChecks: CompactNote -> bool, pt: seq<uint8>): (r: Option<CompactNote>)
    requires |pt| >= COMPACT_NOTE_SIZE
    ensures r.Some? ==> PlaintextVersionIsValid(params, height, pt[0]) && recipientChecks(r.value)
    ensures r.Some? ==> ValidNote(r.value) && EncodeCompact(r.value) == pt[..COMPACT_NOTE_SIZE]
  {
    match ReadCompactFields(params, height, pt)
    case None => None
    case Some(n) =>
      EncodeOfRead(params, height, pt);
      if recipientChecks(n) then Some(n) else None
  }

  // ---------------------------------------------------------------------
  // Abstract cryptography

  /** Bitwise exclusive or of the low n bits of a and b. */
  function XorBits(a: nat, b: nat, n: nat): nat
  {
    if n == 0 then 0 else (a % 2 + b % 2) % 2 + 2 * XorBits(a / 2, b / 2, n - 1)
  }

  lemma {:induction false} XorBitsBound(a: nat, b: nat, n: nat)
    ensures XorBits(a, b, n) < Pow2(n)
  {
    if n > 0 {
      XorBitsBound(a / 2, b / 2, n - 1);
    }
  }

  lemma LowBit(lo: nat, y: nat)
    requires lo < 2
    ensures (lo + 2 * y) % 2 == lo && (lo + 2 * y) / 2 == y
  {
  }

  lemma {:induction false} XorBitsInvolution(a: nat, b: nat, n: nat)
    requires a < Pow2(n)
    ensures XorBits(XorBits(a, b, n), b, n) == a
  {
    if n > 0 {
      var x := XorBits(a, b, n);
      var lo := (a % 2 + b % 2) % 2;
      var y := XorBits(a / 2, b / 2, n - 1);
      LowBit(lo, y);
      assert x % 2 == lo && x / 2 == y;
      assert a / 2 < Pow2(n - 1);
      XorBitsInvolution(a / 2, b / 2, n - 1);
      assert XorBits(x, b, n) == (lo + b % 2) % 2 + 2 * (a / 2);
      assert (lo + b % 2) % 2 == a % 2;
    }
  }

  function XorByte(a: uint8, b: uint8): uint8
  {
    XorBitsBound(a, b, 8);
    assert Pow2(8) == 256;
    XorBits(a, b, 8)
  }

  /** ChaChaPoly-IETF as used here: every call has an empty associated data
      and the all-zero nonce, so a key determines everything. keystream(k, i)
      is byte i of the ChaCha20 keystream from block 1 on, which is the
      stream that encrypts the plaintext. */
  datatype Aead = Aead(
    seal: (seq<uint8>, seq<uint8>) -> seq<uint8>,
    open: (seq<uint8>, seq<uint8>) -> Option<seq<uint8>>,
    keystream: (seq<uint8>, nat) -> uint8)

  /** ChaCha20 with the key's keystream: exclusive or, byte by byte. */
  function StreamXor(A: Aead, key: seq<uint8>, bs: seq<uint8>): (r: seq<uint8>)
    ensures |r| == |bs|
  {
    seq<uint8>(|bs|, i requires 0 <= i < |bs| => XorByte(bs[i], A.keystream(key, i)))
  }

  ghost predicate OpensSealed(A: Aead, key: seq<uint8>, pt: seq<uint8>)
  {
    A.open(key, A.seal(key, pt)) == Some(pt)
  }

  ghost predicate SealShape(A: Aead, key: seq<uint8>, pt: seq<uint8>)
  {
    |A.seal(key, pt)| == |pt| + AEAD_TAG_SIZE && A.seal(key, pt)[..|pt|] == StreamXor(A, key, pt)
  }

  ghost predicate OpenShape(A: Aead, key: seq<uint8>, ct: seq<uint8>)
  {
    A.open(key, ct).Some? ==> |A.open(key, ct).value| + AEAD_TAG_SIZE == |ct|
  }

  /** The AEAD facts the routines rely on (section 2.8 of RFC 8439): opening
      a sealed message gives it back, the ciphertext is the plaintext
      encrypted with the keystream followed by a 16-byte tag, and an opened
      message is 16 bytes shorter than its ciphertext. */
  ghost predicate Lawful(A: Aead)
  {
    && (forall key, pt :: OpensSealed(A, key, pt))
    && (forall key, pt :: SealShape(A, key, pt))
    && (forall key, ct :: OpenShape(A, key, ct))
  }

  lemma SealLaws(A: Aead, key: seq<uint8>, pt: seq<uint8>)
    requires Lawful(A)
    ensures A.open(key, A.seal(key, pt)) == Some(pt)
    ensures |A.seal(key, pt)| == |pt| + AEAD_TAG_SIZE && A.seal(key, pt)[..|pt|] == StreamXor(A, key, pt)
  {
    assert OpensSealed(A, key, pt) && SealShape(A, key, pt);
  }

  lemma SealLength(A: Aead, key: seq<uint8>, pt: seq<uint8>)
    ensures Lawful(A) ==> |A.seal(key, pt)| == |pt| + AEAD_TAG_SIZE
  {
    if Lawful(A) {
      SealLaws(A, key, pt);
    }
  }

  lemma OpenLength(A: Aead, key: seq<uint8>, ct: seq<uint8>)
    requires Lawful(A) && A.open(key, ct).Some?
    ensures |A.open(key, ct).value| + AEAD_TAG_SIZE == |ct|
  {
    assert OpenShape(A, key, ct);
  }

  /** Applying the keystream twice gives the bytes back. */
  lemma StreamXorInvolution(A: Aead, key: seq<uint8>, bs: seq<uint8>)
    ensures StreamXor(A, key, StreamXor(A, key, bs)) == bs
  {
    assert Pow2(8) == 256;
    forall i | 0 <= i < |bs|
      ensures StreamXor(A, key, StreamXor(A, key, bs))[i] == bs[i]
    {
      XorBitsInvolution(bs[i], A.keystream(key, i), 8);
    }
  }

  /** The keystream is positional, so encrypting a prefix gives a prefix. */
  lemma StreamXorPrefix(A: Aead, key: seq<uint8>, bs: seq<uint8>, m: nat)
    requires m <= |bs|
    ensures StreamXor(A, key, bs)[..m] == StreamXor(A, key, bs[..m])
  {
  }

  /** The Jubjub side of output recovery. readPkD and writePkD serialise a
      transmission key; noteKey(esk, pk_d) is kdf_sapling(ka_agree(esk, pk_d),
      epk) for the output's epk; senderChecks(note, pk_d, esk) stands for the
      checks that g_d * esk is epk, that the payment address can be built,
      that the note commitment equals cmu and that a derived esk is esk. */
  datatype Recovery<!PkD> = Recovery(
    readPkD: seq<uint8> -> Option<PkD>,
    writePkD: PkD -> seq<uint8>,
    noteKey: (Fs, PkD) -> seq<uint8>,
    senderChecks: (CompactNote, PkD, Fs) -> bool)

  ghost predicate ReadsWritten<PkD>(R: Recovery<PkD>, pkd: PkD)
  {
    |R.writePkD(pkd)| == 32 && R.readPkD(R.writePkD(pkd)) == Some(pkd)
  }

  /** Point serialisation is 32 bytes and reads back. */
  ghost predicate SerialisationLawful<PkD(!new)>(R: Recovery<PkD>)
  {
    forall pkd :: ReadsWritten(R, pkd)
  }

  lemma WrittenLength<PkD(!new)>(R: Recovery<PkD>, pkd: PkD)
    ensures SerialisationLawful(R) ==> |R.writePkD(pkd)| == 32
  {
    if SerialisationLawful(R) {
      assert ReadsWritten(R, pkd);
    }
  }

  // ---------------------------------------------------------------------
  // Encryption

  /** encrypt_note_plaintext, given the key kdf_sapling(ka_agree(esk, pk_d), epk). */
  function EncryptNotePlaintext(A: Aead, key: seq<uint8>, n: CompactNote, memo: Memo): (ct: seq<uint8>)
    requires ValidNote(n)
    ensures Lawful(A) ==> |ct| == ENC_CIPHERTEXT_SIZE
  {
    var pt := EncodeNotePlaintext(n, memo);
    SealLength(A, key, pt);
    A.seal(key, pt)
  }

  /** encrypt_outgoing_plaintext: pk_d then esk, sealed under ock. */
  function EncryptOutgoingPlaintext<PkD(!new)>(A: Aead, R: Recovery<PkD>, ock: seq<uint8>, pkd: PkD, esk: Fs): (ct: seq<uint8>)
    ensures Lawful(A) && SerialisationLawful(R) ==> |ct| == OUT_CIPHERTEXT_SIZE
  {
    var pt := R.writePkD(pkd) + FsToRepr(esk);
    WrittenLength(R, pkd);
    SealLength(A, ock, pt);
    A.seal(ock, pt)
  }

  // ---------------------------------------------------------------------
  // Decryption

  /** try_sapling_note_decryption, given the key kdf_sapling(ka_agree(ivk,
      epk), epk). An opened plaintext of the wrong length panics in the
      source; here it is None. */
  function TrySaplingNoteDecryption(A: Aead, params: Parameters, height: uint32,
                                    recipientChecks: CompactNote -> bool, key: seq<uint8>,
                                    encCiphertext: seq<uint8>): (r: Option<(CompactNote, Memo)>)
    requires |encCiphertext| == ENC_CIPHERTEXT_SIZE
    ensures r.Some? ==> ValidNote(r.value.0) && recipientChecks(r.value.0)
    ensures r.Some? ==> PlaintextVersionIsValid(params, height, Version(r.value.0.rseed))
    ensures r.Some? ==> A.open(key, encCiphertext) == Some(EncodeNotePlaintext(r.value.0, r.value.1))
  {
    match A.open(key, encCiphertext)
    case None => None
    case Some(pt) =>
      if |pt| != NOTE_PLAINTEXT_SIZE then None
      else
        match ParseNotePlaintextWithoutMemo(params, height, recipientChecks, pt)
        case None => None
        case Some(n) =>
          assert pt == pt[..COMPACT_NOTE_SIZE] + pt[COMPACT_NOTE_SIZE..NOTE_PLAINTEXT_SIZE];
          Some((n, Memo(pt[COMPACT_NOTE_SIZE..NOTE_PLAINTEXT_SIZE])))
  }

  /** try_sapling_compact_note_decryption: the first 52 ciphertext bytes are
      decrypted with the keystream alone, without the tag. */
  function TrySaplingCompactNoteDecryption(A: Aead, params: Parameters, height: uint32,
                                           recipientChecks: CompactNote -> bool, key: seq<uint8>,
                                           encCiphertext: seq<uint8>): (r: Option<CompactNote>)
    requires |encCiphertext| == COMPACT_NOTE_SIZE
    ensures r.Some? ==> ValidNote(r.value)
    ensures r.Some? ==> StreamXor(A, key, EncodeCompact(r.value)) == encCiphertext
    ensures r.Some? ==> recipientChecks(r.value) && PlaintextVersionIsValid(params, height, Version(r.value.rseed))
  {
    var pt := StreamXor(A, key, encCiphertext);
    var r := ParseNotePlaintextWithoutMemo(params, height, recipientChecks, pt);
    if r.Some? then
      assert pt[..COMPACT_NOTE_SIZE] == pt;
      StreamXorInvolution(A, key, encCiphertext);
      r
    else r
  }

  /** try_sapling_output_recovery_with_ock: open the outgoing ciphertext,
      read pk_d and esk from it, derive the note key, open the note
      ciphertext and read its fields. */
  function TrySaplingOutputRecoveryWithOck<PkD>(A: Aead, R: Recovery<PkD>, params: Parameters, height: uint32,
                                                ock: seq<uint8>, encCiphertext: seq<uint8>,
                                                outCiphertext: seq<uint8>): (r: Option<(CompactNote, Memo)>)
    requires |encCiphertext| == ENC_CIPHERTEXT_SIZE && |outCiphertext| == OUT_CIPHERTEXT_SIZE
    ensures r.Some? ==> ValidNote(r.value.0) && PlaintextVersionIsValid(params, height, Version(r.value.0.rseed))
    ensures r.Some? ==> A.open(ock, outCiphertext).Some? && |A.open(ock, outCiphertext).value| == OUT_PLAINTEXT_SIZE
    ensures r.Some? ==>
              var op := A.open(ock, outCiphertext).value;
              && R.readPkD(op[..32]).Some? && FsFromRepr(op[32..OUT_PLAINTEXT_SIZE]).Some?
              && var pkd := R.readPkD(op[..32]).value;
                 var esk := FsFromRepr(op[32..OUT_PLAINTEXT_SIZE]).value;
                 && R.senderChecks(r.value.0, pkd, esk)
                 && A.open(R.noteKey(esk, pkd), encCiphertext) == Some(EncodeNotePlaintext(r.value.0, r.value.1))
  {
    match A.open(ock, outCiphertext)
    case None => None
    case Some(op) =>
      if |op| != OUT_PLAINTEXT_SIZE then None
      else
        match R.readPkD(op[..32])
        case None => None
        case Some(pkd) =>
          match FsFromRepr(op[32..OUT_PLAINTEXT_SIZE])
          case None => None
          case Some(esk) =>
            match A.open(R.noteKey(esk, pkd), encCiphertext)
            case None => None
            case Some(pt) =>
              if |pt| != NOTE_PLAINTEXT_SIZE then None
              else
                match ReadCompactFields(params, height, pt)
                case None => None
                case Some(n) =>
                  EncodeOfRead(params, height, pt);
                  assert pt == pt[..COMPACT_NOTE_SIZE] + pt[COMPACT_NOTE_SIZE..NOTE_PLAINTEXT_SIZE];
                  if R.senderChecks(n, pkd, esk) then Some((n, Memo(pt[COMPACT_NOTE_SIZE..NOTE_PLAINTEXT_SIZE])))
                  else None
  }

  // ---------------------------------------------------------------------
  // Round trips

  /** The recipient decrypts what the sender encrypted under the same key,
      provided the version is acceptable at the height and the Jubjub checks pass. */
  lemma NoteDecryptionOfEncryption(A: Aead, params: Parameters, height: uint32,
                                   recipientChecks: CompactNote -> bool, key: seq<uint8>,
                                   n: CompactNote, memo: Memo)
    requires Lawful(A) && ValidNote(n)
    requires PlaintextVersionIsValid(params, height, Version(n.rseed)) && recipientChecks(n)
    ensures TrySaplingNoteDecryption(A, params, height, recipientChecks, key,
                                     EncryptNotePlaintext(A, key, n, memo)) == Some((n, memo))
  {
    var pt := EncodeNotePlaintext(n, memo);
    SealLaws(A, key, pt);
    assert A.open(key, EncryptNotePlaintext(A, key, n, memo)) == Some(pt);
    ReadOfEncode(params, height, n, memo.bytes);
    assert ParseNotePlaintextWithoutMemo(params, height, recipientChecks, pt) == Some(n);
    assert pt[COMPACT_NOTE_SIZE..NOTE_PLAINTEXT_SIZE] == memo.bytes;
  }

  /** A plaintext whose version byte is not acceptable at the height is
      rejected, whatever else it holds. */
  lemma NoteDecryptionRejectsVersion(A: Aead, params: Parameters, height: uint32,
                                     recipientChecks: CompactNote -> bool, key: seq<uint8>, pt: seq<uint8>)
    requires Lawful(A) && |pt| == NOTE_PLAINTEXT_SIZE && !PlaintextVersionIsValid(params, height, pt[0])
    ensures |A.seal(key, pt)| == ENC_CIPHERTEXT_SIZE
    ensures TrySaplingNoteDecryption(A, params, height, recipientChecks, key, A.seal(key, pt)).None?
  {
    SealLaws(A, key, pt);
  }

  /** A light client decrypts the first 52 bytes of the sender's ciphertext
      to the same note. */
  lemma CompactDecryptionOfEncryption(A: Aead, params: Parameters, height: uint32,
                                      recipientChecks: CompactNote -> bool, key: seq<uint8>,
                                      n: CompactNote, memo: Memo)
    requires Lawful(A) && ValidNote(n)
    requires PlaintextVersionIsValid(params, height, Version(n.rseed)) && recipientChecks(n)
    ensures |EncryptNotePlaintext(A, key, n, memo)| == ENC_CIPHERTEXT_SIZE
    ensures TrySaplingCompactNoteDecryption(A, params, height, recipientChecks, key,
                                            EncryptNotePlaintext(A, key, n, memo)[..COMPACT_NOTE_SIZE]) == Some(n)
  {
    var pt := EncodeNotePlaintext(n, memo);
    var ct := EncryptNotePlaintext(A, key, n, memo);
    SealLaws(A, key, pt);
    assert ct[..COMPACT_NOTE_SIZE] == ct[..NOTE_PLAINTEXT_SIZE][..COMPACT_NOTE_SIZE];
    StreamXorPrefix(A, key, pt, COMPACT_NOTE_SIZE);
    StreamXorInvolution(A, key, EncodeCompact(n));
    ReadOfEncode(params, height, n, []);
    assert EncodeCompact(n) + [] == EncodeCompact(n);
  }

  /** The sender recovers the note and memo from both ciphertexts with ock,
      provided the note was sealed under the key derived from the esk and
      pk_d in the outgoing ciphertext. */
  lemma RecoveryOfEncryption<PkD(!new)>(A: Aead, R: Recovery<PkD>, params: Parameters, height: uint32,
                                        ock: seq<uint8>, pkd: PkD, esk: Fs, n: CompactNote, memo: Memo)
    requires Lawful(A) && SerialisationLawful(R) && ValidNote(n)
    requires PlaintextVersionIsValid(params, height, Version(n.rseed)) && R.senderChecks(n, pkd, esk)
    ensures |EncryptNotePlaintext(A, R.noteKey(esk, pkd), n, memo)| == ENC_CIPHERTEXT_SIZE
    ensures |EncryptOutgoingPlaintext(A, R, ock, pkd, esk)| == OUT_CIPHERTEXT_SIZE
    ensures TrySaplingOutputRecoveryWithOck(A, R, params, height, ock,
                                            EncryptNotePlaintext(A, R.noteKey(esk, pkd), n, memo),
                                            EncryptOutgoingPlaintext(A, R, ock, pkd, esk)) == Some((n, memo))
  {
    assert ReadsWritten(R, pkd);
    var op := R.writePkD(pkd) + FsToRepr(esk);
    SealLaws(A, ock, op);
    assert op[..32] == R.writePkD(pkd) && op[32..OUT_PLAINTEXT_SIZE] == FsToRepr(esk);
    FsReprRoundTrip(esk);
    assert A.open(ock, EncryptOutgoingPlaintext(A, R, ock, pkd, esk)) == Some(op);
    var key := R.noteKey(esk, pkd);
    var pt := EncodeNotePlaintext(n, memo);
    SealLaws(A, key, pt);
    assert A.open(key, EncryptNotePlaintext(A, key, n, memo)) == Some(pt);
    ReadOfEncode(params, height, n, memo.bytes);
    assert ReadCompactFields(params, height, pt) == Some(n);
    assert pt[COMPACT_NOTE_SIZE..NOTE_PLAINTEXT_SIZE] == memo.bytes;
  }
}

=== FILE: schedule.dfy ===
/** The fixed public bit schedule shared by G2Prepared::from_affine and the
    Miller loop: the bits of BLS_X >> 1 that follow its leading one. */
module LoopSchedule {
  import opened Bytes
  import opened Bits

  /** |x| for BLS12-381; x itself is negative. */
  const BLS_X: uint64 := 0xd201000000010000
  const BLS_X_IS_NEGATIVE: bool := true

  /** What BitIterator yields for the one-limb slice [BLS_X >> 1]: all 64 bits,
      most significant first. */
  function LoopBits(): seq<bool>
  {
    BeBits(BLS_X / 2, 64)
  }

  /** The bits both loops act on: the leading one is consumed by found_one. */
  function TailBits(): seq<bool>
  {
    AfterLeadingOne(LoopBits())
  }

  /** The kind of line step that produces, and later consumes, a coefficient triple. */
  datatype Step = Doubling | Addition

  /** One doubling per bit, followed by an addition when the bit is set. */
  function Body(bits: seq<bool>): seq<Step>
  {
    if bits == [] then []
    else Body(bits[..|bits| - 1]) + [Doubling] + (if bits[|bits| - 1] then [Addition] else [])
  }

  /** The whole schedule: the body followed by one last doubling step. */
  function Schedule(bits: seq<bool>): seq<Step>
  {
    Body(bits) + [Doubling]
  }

  function CountDoubling(steps: seq<Step>): nat
  {
    if steps == [] then 0
    else CountDoubling(steps[..|steps| - 1]) + (if steps[|steps| - 1] == Doubling then 1 else 0)
  }

  lemma {:induction false} BodySnoc(bits: seq<bool>, b: bool)
    ensures Body(bits + [b]) == Body(bits) + [Doubling] + (if b then [Addition] else [])
  {
    assert (bits + [b])[..|bits|] == bits;
  }

  /** The body of a concatenation is the concatenation of the bodies. */
  lemma {:induction false} BodyAppend(a: seq<bool>, b: seq<bool>)
    ensures Body(a + b) == Body(a) + Body(b)
  {
    if b == [] {
      assert a + b == a;
    } else {
      var b' := b[..|b| - 1];
      var last := b[|b| - 1];
      assert a + b == (a + b') + [last];
      assert b == b' + [last];
      BodyAppend(a, b');
      BodySnoc(a + b', last);
      BodySnoc(b', last);
    }
  }

  /** A bit string of length n with c set bits yields n + c body steps. */
  lemma {:induction false} BodyLength(bits: seq<bool>)
    ensures |Body(bits)| == |bits| + CountTrue(bits)
  {
    if bits != [] {
      var b' := bits[..|bits| - 1];
      assert bits == b' + [bits[|bits| - 1]];
      BodyLength(b');
      BeValueSnoc(b', bits[|bits| - 1]);
    }
  }

  lemma {:induction false} CountDoublingAppend(a: seq<Step>, b: seq<Step>)
    ensures CountDoubling(a + b) == CountDoubling(a) + CountDoubling(b)
  {
    if b == [] {
      assert a + b == a;
    } else {
      var b' := b[..|b| - 1];
      assert a + b == (a + b') + [b[|b| - 1]];
      assert (a + b)[..|a + b| - 1] == a + b';
      CountDoublingAppend(a, b');
    }
  }

  lemma Pow2Values()
    ensures Pow2(62) == 0x4000_0000_0000_0000
    ensures Pow2(63) == 0x8000_0000_0000_0000
  {
    assert Pow2(8) == 0x100;
    assert Pow2(16) == 0x1_0000;
    assert Pow2(24) == 0x100_0000;
    assert Pow2(32) == 0x1_0000_0000;
    assert Pow2(40) == 0x100_0000_0000;
    assert Pow2(48) == 0x1_0000_0000_0000;
    assert Pow2(56) == 0x100_0000_0000_0000;
  }

  lemma PopCountOfTail()
    ensures PopCount(0x2900_8000_0000_8000) == 5
  {
    assert Pow2(8) == 0x100;
    assert Pow2(16) == 0x1_0000;
    assert Pow2(24) == 0x100_0000;
    assert Pow2(32) == 0x1_0000_0000;
    assert Pow2(40) == 0x100_0000_0000;
    assert PopCount(0x29) == 3;
    assert PopCount(0x80) == 1;
    PopCountSplit(0x80, 0, 8);
    PopCountSplit(0x29, 0x80, 16);
    PopCountSplit(0x29_0080, 0x8000, 40);
  }

  /** BLS_X >> 1 = 0x6900800000008000 has its leading one at bit 62; the 62
      bits after it hold five ones. */
  lemma TailBitsShape()
    ensures |TailBits()| == 62
    ensures CountTrue(TailBits()) == 5
  {
    var x := BLS_X / 2;
    assert x == 0x6900_8000_0000_8000;
    Pow2Values();
    AfterLeadingOneOfPadded(x, 62, 1);
    assert TailBits() == BeBits(x - Pow2(62), 62);
    CountTrueOfBeBits(x - Pow2(62), 62);
    PopCountOfTail();
  }

  /** 62 doublings, 5 additions and the final doubling: 68 steps. */
  lemma ScheduleLength()
    ensures |Schedule(TailBits())| == 68
    ensures |Body(TailBits())| == 67
  {
    TailBitsShape();
    BodyLength(TailBits());
  }
}

=== FILE: utf8.dfy ===
/** UTF-8 as str::as_bytes and str::from_utf8 use it: encoding of Unicode
    scalar values, and validation that accepts exactly the well-formed byte
    sequences of table 3-7 of the Unicode Standard (chapter 3.9). A failed
    validation reports valid_up_to, the offset of the first ill-formed
    sequence. */
module Utf8 {
  import opened Wrappers
  import opened Bytes

  predicate IsContinuation(b: uint8)
  {
    0x80 <= b <= 0xBF
  }

  /** The one to four bytes of a scalar value. */
  function EncodeChar(c: char): (bs: seq<uint8>)
    ensures 1 <= |bs| <= 4
    ensures bs[0] < 0xF5
  {
    var v := c as int;
    var q1, r0 := v / 64, v % 64;
    var q2, r1 := q1 / 64, q1 % 64;
    var q3, r2 := q2 / 64, q2 % 64;
    if v < 0x80 then [v]
    else if v < 0x800 then [0xC0 + q1, 0x80 + r0]
    else if v < 0x1_0000 then [0xE0 + q2, 0x80 + r1, 0x80 + r0]
    else [0xF0 + q3, 0x80 + r2, 0x80 + r1, 0x80 + r0]
  }

  function Encode(s: string): (bs: seq<uint8>)
    ensures |bs| >= |s|
  {
    if s == [] then [] else EncodeChar(s[0]) + Encode(s[1..])
  }

  /** The length of the sequence a lead byte announces; 0 for bytes that
      cannot start a well-formed sequence (continuation bytes, C0, C1, F5..FF). */
  function SequenceLength(b0: uint8): nat
  {
    if b0 < 0x80 then 1
    else if 0xC2 <= b0 <= 0xDF then 2
    else if 0xE0 <= b0 <= 0xEF then 3
    else if 0xF0 <= b0 <= 0xF4 then 4
    else 0
  }

  /** The allowed range of the second byte after a lead byte (table 3-7):
      narrower after E0, ED, F0 and F4, which rules out overlong forms,
      surrogates and values above 10FFFF. */
  function SecondLow(b0: uint8): int
  {
    if b0 == 0xE0 then 0xA0 else if b0 == 0xF0 then 0x90 else 0x80
  }

  function SecondHigh(b0: uint8): int
  {
    if b0 == 0xED then 0x9F else if b0 == 0xF4 then 0x8F else 0xBF
  }

  /** bs starts with a well-formed UTF-8 sequence. */
  predicate WellFormedFirst(bs: seq<uint8>)
  {
    && bs != []
    && var n := SequenceLength(bs[0]);
    && 1 <= n <= |bs|
    && (n >= 2 ==> SecondLow(bs[0]) <= bs[1] as int <= SecondHigh(bs[0]))
    && (n >= 3 ==> IsContinuation(bs[2]))
    && (n >= 4 ==> IsContinuation(bs[3]))
  }

  /** The scalar value the well-formed sequence at the front of bs encodes. */
  function ScalarFirst(bs: seq<uint8>): (v: int)
    requires WellFormedFirst(bs)
    ensures 0 <= v < 0xD800 || 0xE000 <= v < 0x11_0000
  {
    var b0 := bs[0] as int;
    match SequenceLength(bs[0])
    case 1 => b0
    case 2 => (b0 - 0xC0) * 64 + (bs[1] as int - 0x80)
    case 3 => (b0 - 0xE0) * 4096 + (bs[1] as int - 0x80) * 64 + (bs[2] as int - 0x80)
    case _ => (b0 - 0xF0) * 262144 + (bs[1] as int - 0x80) * 4096 + (bs[2] as int - 0x80) * 64 + (bs[3] as int - 0x80)
  }

  /** The character and length of the well-formed sequence at the front of
      bs, or None when bs does not start with one. */
  function DecodeFirst(bs: seq<uint8>): (r: Option<(char, nat)>)
    ensures r.Some? ==> 1 <= r.value.1 <= |bs|
  {
    if WellFormedFirst(bs) then Some((ScalarFirst(bs) as char, SequenceLength(bs[0]))) else None
  }

  /** A recogniser of the first sequence of a byte string: its character and
      its length in bytes, or None when no well-formed sequence starts there. */
  type Recogniser = seq<uint8> -> Option<(char, nat)>

  /** The validation loop: recognise a sequence, then carry on after it. A
      failure reports the offset of the first sequence not recognised; a
      claimed length of zero or past the end counts as not recognised. The
      loop is written over any recogniser so that facts about the loop are
      proved once, apart from the facts about the table. */
  function DecodeWith(first: Recogniser, bs: seq<uint8>): (r: Result<string, nat>)
    ensures r.Failure? ==> r.error < |bs|
    decreases |bs|
  {
    if bs == [] then Success([])
    else if first(bs).None? then Failure(0)
    else
      var (c, n) := first(bs).value;
      if n < 1 || n > |bs| then Failure(0)
      else
        var rest := DecodeWith(first, bs[n..]);
        if rest.Success? then Success([c] + rest.value) else Failure(n + rest.error)
  }

  /** str::from_utf8: the decoded string, or valid_up_to. */
  function Decode(bs: seq<uint8>): (r: Result<string, nat>)
    ensures r.Failure? ==> r.error < |bs|
  {
    DecodeWith(DecodeFirst, bs)
  }

  // The loop, one step: after a recognised sequence of n bytes the result
  // is that of the rest, with the character in front or the offset moved by n.

  lemma DecodeWithStepSuccess(first: Recogniser, bs: seq<uint8>, c: char, n: nat)
    requires first(bs) == Some((c, n)) && 1 <= n <= |bs|
    requires DecodeWith(first, bs[n..]).Success?
    ensures DecodeWith(first, bs) == Success([c] + DecodeWith(first, bs[n..]).value)
  {
  }

  lemma DecodeWithStepFailure(first: Recogniser, bs: seq<uint8>, c: char, n: nat, k: nat)
    requires first(bs) == Some((c, n)) && 1 <= n <= |bs|
    requires DecodeWith(first, bs[n..]) == Failure(k)
    ensures DecodeWith(first, bs) == Failure(n + k)
  {
  }

  lemma DecodeWithFailureStep(first: Recogniser, bs: seq<uint8>, c: char, n: nat)
    requires first(bs) == Some((c, n)) && 1 <= n <= |bs|
    requires DecodeWith(first, bs).Failure?
    ensures DecodeWith(first, bs[n..]).Failure?
    ensures DecodeWith(first, bs).error == n + DecodeWith(first, bs[n..]).error
  {
  }

  lemma DropPrefix<X>(e: seq<X>, tail: seq<X>)
    ensures (e + tail)[|e|..] == tail
  {
  }

  lemma DivMod64(x: int, q: int, r: int)
    requires 0 <= r < 64 && x == q * 64 + r
    ensures x / 64 == q && x % 64 == r
  {
  }

  /** Decoding the encoding of a character reads that character back. */
  lemma DecodeFirstOfEncodeChar(c: char, rest: seq<uint8>)
    ensures DecodeFirst(EncodeChar(c) + rest) == Some((c, |EncodeChar(c)|))
  {
    var v := c as int;
    var q1, r0 := v / 64, v % 64;
    var q2, r1 := q1 / 64, q1 % 64;
    var q3, r2 := q2 / 64, q2 % 64;
    assert v == q1 * 64 + r0 && q1 == q2 * 64 + r1 && q2 == q3 * 64 + r2;
    var bs := EncodeChar(c) + rest;
    if v < 0x80 {
    } else if v < 0x800 {
      assert q1 < 32;
      assert (q1 * 64 + r0) as char == c;
    } else if v < 0x1_0000 {
      assert q2 < 16;
      assert v == q2 * 4096 + r1 * 64 + r0;
      assert q2 == 0 ==> r1 >= 32;
      assert q2 == 0xD ==> r1 < 32;
      assert (q2 * 4096 + r1 * 64 + r0) as char == c;
    } else {
      assert q3 < 5;
      assert v == q3 * 262144 + r2 * 4096 + r1 * 64 + r0;
      assert q3 == 0 ==> r2 >= 16;
      assert q3 == 4 ==> r2 < 16;
      assert (q3 * 262144 + r2 * 4096 + r1 * 64 + r0) as char == c;
    }
  }

  /** A well-formed sequence is exactly the encoding of the character it decodes to. */
  lemma EncodeCharOfDecodeFirst(bs: seq<uint8>)
    requires DecodeFirst(bs).Some?
    ensures EncodeChar(DecodeFirst(bs).value.0) == bs[..DecodeFirst(bs).value.1]
  {
    var c := DecodeFirst(bs).value.0;
    var v := c as int;
    var b0 := bs[0] as int;
    if b0 < 0x80 {
    } else if b0 <= 0xDF {
      DivMod64(v, b0 - 0xC0, bs[1] as int - 0x80);
    } else if b0 <= 0xEF {
      var q1 := (b0 - 0xE0) * 64 + (bs[1] as int - 0x80);
      DivMod64(v, q1, bs[2] as int - 0x80);
      DivMod64(q1, b0 - 0xE0, bs[1] as int - 0x80);
    } else {
      var q2 := (b0 - 0xF0) * 64 + (bs[1] as int - 0x80);
      var q1 := q2 * 64 + (bs[2] as int - 0x80);
      DivMod64(v, q1, bs[3] as int - 0x80);
      DivMod64(q1, q2, bs[2] as int - 0x80);
      DivMod64(q2, b0 - 0xF0, bs[1] as int - 0x80);
    }
  }

  /** DecodeFirst looks no further than the sequence it recognises. */
  lemma DecodeFirstPrefix(bs: seq<uint8>, m: nat)
    requires DecodeFirst(bs).Some? && DecodeFirst(bs).value.1 <= m <= |bs|
    ensures DecodeFirst(bs[..m]) == DecodeFirst(bs)
  {
    var n := DecodeFirst(bs).value.1;
    assert bs[..m][..n] == bs[..n];
    assert forall i | 0 <= i < n :: bs[..m][i] == bs[i];
  }

  // The three facts about the table that the loop lemmas below rely on.

  ghost predicate RecognisedAt(first: Recogniser, c: char, rest: seq<uint8>)
  {
    first(EncodeChar(c) + rest) == Some((c, |EncodeChar(c)|))
  }

  ghost predicate InvertsAt(first: Recogniser, bs: seq<uint8>)
  {
    first(bs).Some? ==>
      first(bs).value.1 <= |bs| && EncodeChar(first(bs).value.0) == bs[..first(bs).value.1]
  }

  ghost predicate LocalAt(first: Recogniser, bs: seq<uint8>, m: nat)
  {
    first(bs).Some? && first(bs).value.1 <= m <= |bs| ==> first(bs[..m]) == first(bs)
  }

  /** A recogniser that agrees with the encoder: it reads every encoded
      character back, recognises only encodings, and looks no further than
      the sequence it recognises. */
  ghost predicate AgreesWithEncoder(first: Recogniser)
  {
    && (forall c, rest :: RecognisedAt(first, c, rest))
    && (forall bs :: InvertsAt(first, bs))
    && (forall bs, m :: LocalAt(first, bs, m))
  }

  lemma DecodeFirstAgrees()
    ensures AgreesWithEncoder(DecodeFirst)
  {
    forall c, rest
      ensures RecognisedAt(DecodeFirst, c, rest)
    {
      DecodeFirstOfEncodeChar(c, rest);
    }
    forall bs
      ensures InvertsAt(DecodeFirst, bs)
    {
      if DecodeFirst(bs).Some? {
        EncodeCharOfDecodeFirst(bs);
      }
    }
    forall bs, m: nat
      ensures LocalAt(DecodeFirst, bs, m)
    {
      if DecodeFirst(bs).Some? && DecodeFirst(bs).value.1 <= m <= |bs| {
        DecodeFirstPrefix(bs, m);
      }
    }
  }

  lemma HeadTailAppend<X>(s: seq<X>, t: seq<X>)
    requires s != []
    ensures [s[0]] + (s[1..] + t) == s + t
  {
    assert s == [s[0]] + s[1..];
  }

  /** The encoding of a non-empty string followed by more bytes, split after
      its first character. */
  lemma EncodeConsAppend(s: string, rest: seq<uint8>)
    requires s != []
    ensures Encode(s) + rest == EncodeChar(s[0]) + (Encode(s[1..]) + rest)
  {
  }

  /** The first character of an encoded string followed by more bytes is
      recognised, and the loop continues right after its encoding. */
  lemma RecognisedFirst(first: Recogniser, s: string, rest: seq<uint8>)
    requires AgreesWithEncoder(first) && s != []
    ensures first(Encode(s) + rest) == Some((s[0], |EncodeChar(s[0])|))
    ensures (Encode(s) + rest)[|EncodeChar(s[0])|..] == Encode(s[1..]) + rest
    ensures |Encode(s)| == |EncodeChar(s[0])| + |Encode(s[1..])|
  {
    var tail := Encode(s[1..]) + rest;
    EncodeConsAppend(s, rest);
    assert RecognisedAt(first, s[0], tail);
    DropPrefix(EncodeChar(s[0]), tail);
  }

  lemma {:induction false} DecodeWithOfEncodeSuccess(first: Recogniser, s: string, rest: seq<uint8>)
    requires AgreesWithEncoder(first) && DecodeWith(first, rest).Success?
    ensures DecodeWith(first, Encode(s) + rest) == Success(s + DecodeWith(first, rest).value)
  {
    if s == [] {
      assert Encode(s) + rest == rest;
      assert s + DecodeWith(first, rest).value == DecodeWith(first, rest).value;
    } else {
      RecognisedFirst(first, s, rest);
      DecodeWithOfEncodeSuccess(first, s[1..], rest);
      DecodeWithStepSuccess(first, Encode(s) + rest, s[0], |EncodeChar(s[0])|);
      HeadTailAppend(s, DecodeWith(first, rest).value);
    }
  }

  /** One step of the failure case: an error k bytes into what follows the
      encoding of s[1..] is reported one character further on. */
  lemma FailureAfterEncodedFirst(first: Recogniser, s: string, rest: seq<uint8>, k: nat)
    requires AgreesWithEncoder(first) && s != []
    requires DecodeWith(first, Encode(s[1..]) + rest) == Failure(|Encode(s[1..])| + k)
    ensures DecodeWith(first, Encode(s) + rest) == Failure(|Encode(s)| + k)
  {
    var bs, n := Encode(s) + rest, |EncodeChar(s[0])|;
    RecognisedFirst(first, s, rest);
    assert DecodeWith(first, bs[n..]) == Failure(|Encode(s[1..])| + k);
    DecodeWithStepFailure(first, bs, s[0], n, |Encode(s[1..])| + k);
  }

  lemma {:induction false} DecodeWithOfEncodeFailure(first: Recogniser, s: string, rest: seq<uint8>)
    requires AgreesWithEncoder(first) && DecodeWith(first, rest).Failure?
    ensures DecodeWith(first, Encode(s) + rest) == Failure(|Encode(s)| + DecodeWith(first, rest).error)
  {
    if s == [] {
      assert Encode(s) + rest == rest;
    } else {
      DecodeWithOfEncodeFailure(first, s[1..], rest);
      FailureAfterEncodedFirst(first, s, rest, DecodeWith(first, rest).error);
    }
  }

  /** Decoding an encoded string followed by bytes that decode gives the
      string, then what the rest decodes to. */
  lemma DecodeOfEncode(s: string, rest: seq<uint8>)
    requires Decode(rest).Success?
    ensures Decode(Encode(s) + rest) == Success(s + Decode(rest).value)
  {
    DecodeFirstAgrees();
    DecodeWithOfEncodeSuccess(DecodeFirst, s, rest);
  }

  /** An error in the bytes after an encoded string is reported at its own
      offset shifted by the encoded length. */
  lemma DecodeOfEncodeShift(s: string, rest: seq<uint8>)
    requires Decode(rest).Failure?
    ensures Decode(Encode(s) + rest) == Failure(|Encode(s)| + Decode(rest).error)
  {
    var e, k := Encode(s), Decode(rest).error;
    DecodeFirstAgrees();
    DecodeWithOfEncodeFailure(DecodeFirst, s, rest);
    assert DecodeWith(DecodeFirst, e + rest) == Failure(|e| + k);
  }

  lemma EncodeDecodeRoundTrip(s: string)
    ensures Decode(Encode(s)) == Success(s)
  {
    DecodeOfEncode(s, []);
    assert Encode(s) + [] == Encode(s);
    assert s + [] == s;
  }

  lemma SliceOfPrefix<X>(s: seq<X>, n: nat, k: nat)
    requires n <= k <= |s|
    ensures s[..k][n..] == s[n..][..k - n]
  {
  }

  lemma {:induction false} DecodeWithFailureOffset(first: Recogniser, bs: seq<uint8>)
    requires AgreesWithEncoder(first) && DecodeWith(first, bs).Failure?
    ensures first(bs[DecodeWith(first, bs).error..]).None?
    ensures DecodeWith(first, bs[..DecodeWith(first, bs).error]).Success?
    decreases |bs|
  {
    var k := DecodeWith(first, bs).error;
    match first(bs)
    case None =>
      assert bs[..0] == [];
      assert bs[0..] == bs;
    case Some((c, n)) =>
      assert InvertsAt(first, bs);
      DecodeWithFailureStep(first, bs, c, n);
      var k' := DecodeWith(first, bs[n..]).error;
      DecodeWithFailureOffset(first, bs[n..]);
      assert bs[n..][k'..] == bs[k..];
      var pre := bs[..k];
      assert LocalAt(first, bs, k);
      SliceOfPrefix(bs, n, k);
      DecodeWithStepSuccess(first, pre, c, n);
  }

  /** valid_up_to: on failure, the bytes before the reported offset decode
      and an ill-formed sequence starts at the offset. */
  lemma DecodeFailureOffset(bs: seq<uint8>)
    requires Decode(bs).Failure?
    ensures Decode(bs).error < |bs|
    ensures DecodeFirst(bs[Decode(bs).error..]).None?
    ensures Decode(bs[..Decode(bs).error]).Success?
  {
    DecodeFirstAgrees();
    DecodeWithFailureOffset(DecodeFirst, bs);
  }

  lemma EncodeCons(c: char, t: string)
    ensures Encode([c] + t) == EncodeChar(c) + Encode(t)
  {
    assert ([c] + t)[1..] == t;
  }

  lemma SplitAt<X>(s: seq<X>, n: nat)
    requires n <= |s|
    ensures s[..n] + s[n..] == s
  {
  }

  lemma {:induction false} EncodeOfDecodeWith(first: Recogniser, bs: seq<uint8>)
    requires AgreesWithEncoder(first) && DecodeWith(first, bs).Success?
    ensures Encode(DecodeWith(first, bs).value) == bs
    decreases |bs|
  {
    if bs != [] {
      var (c, n) := first(bs).value;
      assert InvertsAt(first, bs);
      DecodeWithStepSuccess(first, bs, c, n);
      var t := DecodeWith(first, bs[n..]).value;
      EncodeOfDecodeWith(first, bs[n..]);
      EncodeCons(c, t);
      SplitAt(bs, n);
    }
  }

  /** Decoding succeeds only on the encoding of the decoded string. */
  lemma EncodeOfDecode(bs: seq<uint8>)
    requires Decode(bs).Success?
    ensures Encode(Decode(bs).value) == bs
  {
    DecodeFirstAgrees();
    EncodeOfDecodeWith(DecodeFirst, bs);
  }

  /** The NUL characters as a string of length n. */
  function Nuls(n: nat): (s: string)
    ensures |s| == n
    ensures forall i | 0 <= i < n :: s[i] == 0 as char
  {
    seq(n, _ => 0 as char)
  }

  lemma {:induction false} EncodeAppend(a: string, b: string)
    ensures Encode(a + b) == Encode(a) + Encode(b)
  {
    if a != [] {
      assert (a + b)[0] == a[0];
      assert (a + b)[1..] == a[1..] + b;
      EncodeAppend(a[1..], b);
    } else {
      assert a + b == b;
    }
  }

  /** NUL characters encode to zero bytes, one each. */
  lemma {:induction false} EncodeOfNuls(n: nat)
    ensures Encode(Nuls(n)) == Zeros(n)
  {
    if n > 0 {
      assert Nuls(n)[1..] == Nuls(n - 1);
      EncodeOfNuls(n - 1);
      assert EncodeChar(0 as char) == [0];
      assert [0] + Zeros(n - 1) == Zeros(n);
    }
  }

  /** A run of zero bytes decodes to a run of NUL characters. */
  lemma DecodeOfZeros(n: nat)
    ensures Decode(Zeros(n)) == Success(Nuls(n))
  {
    EncodeOfNuls(n);
    EncodeDecodeRoundTrip(Nuls(n));
  }
}

=== FILE: wrappers.dfy ===
/** Failure-carrying datatypes shared by the note-encryption and pairing models. */
module Wrappers {

  /** Rust's Option: None stands for an absent value or a rejected input. */
  datatype Option<+T> = None | Some(value: T)

  /** Rust's Result: Failure carries the error value. */
  datatype Result<+R, +E> = Success(value: R) | Failure(error: E)
}

=== FILE: zip212.dfy ===
/** Note-plaintext lead-byte acceptance (plaintext_version_is_valid), the
    rule of ZIP 212: before Canopy only version 1 is accepted, during the
    grace period after Canopy activation both 1 and 2, afterwards only 2. */
module Zip212 {
  import opened Wrappers
  import opened Bytes

  /** Number of blocks after Canopy activation during which version-1
      plaintexts are still accepted (ZIP 212). */
  const ZIP212_GRACE_PERIOD: uint32 := 32256

  /** The network parameters the rule consults: the Canopy activation height,
      if the network has one. */
  datatype Parameters = Parameters(canopyActivation: Option<uint32>)

  /** A network upgrade is active at every height at or above its activation height. */
  predicate IsCanopyActive(params: Parameters, height: uint32)
  {
    params.canopyActivation.Some? && params.canopyActivation.value <= height
  }

  /** The first height at which only version 2 is accepted. */
  function GracePeriodEnd(activation: uint32): nat
  {
    activation + ZIP212_GRACE_PERIOD
  }

  function PlaintextVersionIsValid(params: Parameters, height: uint32, leadByte: uint8): (ok: bool)
    ensures !IsCanopyActive(params, height) ==> (ok <==> leadByte == 0x01)
    ensures IsCanopyActive(params, height) && height < GracePeriodEnd(params.canopyActivation.value) ==>
              (ok <==> leadByte == 0x01 || leadByte == 0x02)
    ensures IsCanopyActive(params, height) && height >= GracePeriodEnd(params.canopyActivation.value) ==>
              (ok <==> leadByte == 0x02)
  {
    if IsCanopyActive(params, height) then
      var graceEnd := GracePeriodEnd(params.canopyActivation.value);
      if height < graceEnd && leadByte != 0x01 && leadByte != 0x02 then false
      else if height >= graceEnd && leadByte != 0x02 then false
      else true
    else
      leadByte == 0x01
  }

  /** The lead bytes ZIP 212 allows at a height, stated as a set. */
  function AllowedLeadBytes(params: Parameters, height: uint32): set<uint8>
  {
    match params.canopyActivation
    case None => {1}
    case Some(a) =>
      if height < a then {1}
      else if height < a + ZIP212_GRACE_PERIOD then {1, 2}
      else {2}
  }

  /** The decision in plaintext_version_is_valid is membership in the allowed set. */
  lemma VersionValidIffAllowed(params: Parameters, height: uint32, leadByte: uint8)
    ensures PlaintextVersionIsValid(params, height, leadByte) <==> leadByte in AllowedLeadBytes(params, height)
  {
  }

  /** Only versions 1 and 2 are ever accepted, and at every height exactly
      one of them or both. */
  lemma OnlyKnownVersions(params: Parameters, height: uint32, leadByte: uint8)
    ensures PlaintextVersionIsValid(params, height, leadByte) ==> leadByte == 0x01 || leadByte == 0x02
    ensures PlaintextVersionIsValid(params, height, 0x01) || PlaintextVersionIsValid(params, height, 0x02)
  {
  }

  /** The three rejections checked by the invalid-version-byte test: version 2
      just before activation, version 3 at activation, version 1 once the grace
      period is over. */
  lemma InvalidVersionByteVectors(activation: uint32)
    requires 0 < activation && activation as nat + ZIP212_GRACE_PERIOD as nat <= 0xFFFF_FFFF
    ensures !PlaintextVersionIsValid(Parameters(Some(activation)), activation - 1, 0x02)
    ensures !PlaintextVersionIsValid(Parameters(Some(activation)), activation, 0x03)
    ensures !PlaintextVersionIsValid(Parameters(Some(activation)), activation + ZIP212_GRACE_PERIOD, 0x01)
  {
  }
}
